=== FILE: README.md ===
# Coupe Facile bot plugin: the string logic, in Dafny

A WhatsApp bot plugin drives a tournament website ("Coupe Facile") for chat
groups. Most of it is glue around a headless browser, an OCR library, cron
and the chat client. This project models the pure logic inside that glue
and proves what it does:

- **Score-capture parser** (`ScoreCapture`). `analyzeScoreCapture` searches
  the recognised text with the case-insensitive regular expression
  `(\w+)\s*(?:vs?|contre)\s*(\w+)\s*[:\-]?\s*(\d+)\s*[:\-]\s*(\d+)`. The
  first match becomes two trimmed names and two `parseInt` scores; no match
  gives `null`.
- **OCR library reader** (`OcrScore`). The exported function of the OCR
  module searches with `(\w+)\s*(\d+)[-\s](\d+)\s*(\w+)` and returns the two
  names and the raw score string `d1-d2`, or `null`.
- **Regular-expression engine** (`Backtrack`). Both parsers run on a small
  backtracking matcher. It has two sides:
  - A declarative side says what a match is (`MatchesFrom`, `MatchesAt`).
    It also says which match JavaScript reports: the leftmost start, then
    the first in backtracking order, with greedy counts longest first and
    alternatives left to right (`NoLaterThan`, `IsFirstMatch`).
  - An executable side (`MatchFrom`, `Search`) is proved sound and
    complete against it.
- **Match-row lookup** (`ScoreRows`). `submitScore` clicks the score button
  of the first table row whose lower-cased text contains both lower-cased
  names and that has a button.
- **Pending players** (`PendingPlayers`). `extractPlayersFromPendingMatches`
  collects the trimmed, non-empty player names of the pending rows. It then
  removes duplicates through a `Set`, keeping first appearances in order.
- **Mentions** (`Mentions`). Covers the caption `caption\n\n@p1 @p2 ...`
  and the mentioned ids `p@s.whatsapp.net` built by `sendImageWithMention`
  and by the hourly reminder.
- **Group activation** (`ActiveGroups`). `coupe-start` and `coupe-stop`
  update the `activeGroups` map only for an admin in a group. The map is
  also modelled as its insertion-ordered entries, which `Map.set` and
  `Map.delete` keep distinct and in order. The scheduled tasks' `for ... of`
  loop, when it runs to the end, visits the groups whose flag is set in the
  map as it stands when the loop starts, in that order.

Supporting modules: `JsText` holds the JavaScript string operations used:
`\w`, `\d`, `\s`, `toLowerCase`, `includes`, `trim`, `join` and `split`.
`Decimal` holds `parseInt` on digit runs and the decimal rendering of a
number. `Wrappers` holds `Option`.

Three facts about the code shape the model:

- In the first pattern the versus word is required.
- The two patterns stay two patterns. The library one separates the scores
  with `-` or whitespace only.
- `parseInt` of a `(\d+)` capture cannot fail, so there is no parse-failure
  path.

## Model

| member | source | states |
|---|---|---|
| `ScoreCapture.AnalyzeScoreText` | Plugins/Coupe-facile.js:176-188 | The result is null exactly when no position of the text starts a match of the pattern. Otherwise it holds the four groups of the first match JavaScript reports, as names and scores. Both names are non-empty runs of word characters. |
| `ScoreCapture.GroupsAreRuns` | Plugins/Coupe-facile.js:176 | In every match the two name groups are non-empty `\w` runs and the two score groups are non-empty `\d` runs. |
| `ScoreCapture.VersusLineRoundTrip` | Plugins/Coupe-facile.js:176-185 | Write a line as `n1 <vs/v/contre in any ASCII case> n2 a<-or:>b` with word-character names. Parsing it gives back `n1`, `n2`, `a` and `b`. |
| `ScoreCapture.VersusLineMatch` | Plugins/Coupe-facile.js:176-177 | On such a line the pattern matches from the first character. Each name group takes its whole name and each score group its whole number. |
| `ScoreCapture.VersusWordTaken` | Plugins/Coupe-facile.js:176 | A versus word followed by a space is read as written, ignoring case. With a space after it, the word takes its own alternative even though `vs` is tried before `v`. |
| `ScoreCapture.ScoresTail` | Plugins/Coupe-facile.js:176 | The last five items read `A<mark>B`. Each digit run is taken whole and the mark is the separator between them. |
| `ScoreCapture.NoDigitNoScore` | Plugins/Coupe-facile.js:176-188 | A text without any ASCII digit always gives null. |
| `ScoreCapture.MatchHasDigit` | Plugins/Coupe-facile.js:176 | Every match contains a digit of the text, at or after the match's start. |
| `OcrScore.ExtractScore` | lib/coupefacile/ocr.js:9-14 | The result is null exactly when no position matches. Otherwise `player1` is group 1 and `player2` is group 4 of the first reported match. Both are non-empty word runs. |
| `OcrScore.LibGroups` | lib/coupefacile/ocr.js:9 | In every match the names are word runs and the scores are digit runs. The gaps are whitespace only. Exactly one `-` or whitespace character sits between the digit runs. |
| `OcrScore.ScoreParts` | lib/coupefacile/ocr.js:13 | The score is the two raw digit runs joined by `-`, leading zeros included. Splitting it at `-` gives them back. |
| `OcrScore.SeparatorIsOneChar` | lib/coupefacile/ocr.js:9 | The digit runs of the reported match are separated by exactly one character, `-` or whitespace. |
| `OcrScore.MatchInText` | lib/coupefacile/ocr.js:9-13 | The text at the match's start is: player 1, whitespace, first digits, separator, second digits, whitespace, player 2. |
| `OcrScore.LineMatch` | lib/coupefacile/ocr.js:9 | On `n1 d1<sep>d2 n2` the pattern matches from the first character. Each group takes exactly the written part. |
| `OcrScore.LineRoundTrip` | lib/coupefacile/ocr.js:9-13 | Reading `n1 d1-d2 n2` (or with whitespace between the scores) gives back `n1`, `n2` and `d1-d2`. |
| `Backtrack.MatchFrom` | Plugins/Coupe-facile.js:176-177 | Whatever the backtracking matcher returns at the start of a string is a match of the pattern there. |
| `Backtrack.MatchFromIsFirst` | Plugins/Coupe-facile.js:176-177 | If any match starts there, the matcher finds one, and it is no later in backtracking order than any other match. |
| `Backtrack.Search` | Plugins/Coupe-facile.js:177 | `String.prototype.match` without `g` reports the first match, leftmost start first. It reports nothing exactly when no position matches. |
| `Backtrack.SearchReports` | lib/coupefacile/ocr.js:9 | Any match that is first by the declarative definition is exactly what the search returns. |
| `Backtrack.FirstMatchUnique` | lib/coupefacile/ocr.js:9 | A text has at most one first match, so the captures reported are determined by the text. |
| `Backtrack.PeelRepeat` | Plugins/Coupe-facile.js:176 | A greedy quantified class takes the whole run of its characters ahead when the rest of the pattern matches after that run. |
| `Backtrack.PeelLiteral` | Plugins/Coupe-facile.js:176 | An alternation takes alternative `j`, ignoring case, when the rest of the pattern matches after it and every earlier alternative is either not ahead or leaves a rest that cannot match. |
| `Backtrack.MatchSpelled` | lib/coupefacile/ocr.js:9 | A match consumes a prefix of the text: its groups and gaps laid end to end. |
| `JsText.Contains` | Plugins/Coupe-facile.js:208-209 | `includes` is true exactly when the needle occurs at some index of the text. |
| `JsText.LowerEqualIffSameCase` | Plugins/Coupe-facile.js:207-209 | Two strings lower-case to the same text exactly when they have the same length and differ only in the case of ASCII letters. |
| `JsText.LowerTwice` | Plugins/Coupe-facile.js:207-209 | Lower-casing an already lower-cased string changes nothing. |
| `JsText.TrimSpec` | Plugins/Coupe-facile.js:153-154 | `trim` keeps a slice of the string that neither starts nor ends with `\s`. Everything removed before and after it is `\s`. |
| `JsText.TrimWordRun` | Plugins/Coupe-facile.js:181-182 | Trimming a `(\w+)` capture returns it unchanged. |
| `JsText.SplitJoin` | Plugins/Coupe-facile.js:267 | When no part contains the separator, splitting the joined string at it gives back the parts. |
| `Decimal.ShowNatRoundTrip` | Plugins/Coupe-facile.js:183-184 | `parseInt` of the decimal rendering of a number gives the number back, and the rendering is a digit run. |
| `Decimal.LeadingZero` | Plugins/Coupe-facile.js:183-184 | A leading zero does not change the value `parseInt` reads. |
| `ScoreRows.FindScoreRow` | Plugins/Coupe-facile.js:203-219 | The lookup picks the first row that qualifies and has a button. It reports none exactly when no such row exists. |
| `ScoreRows.MatchFound` | Plugins/Coupe-facile.js:206-218 | The lookup returns true exactly when some row both qualifies and has a button. |
| `ScoreRows.QualifiesMeansOccurs` | Plugins/Coupe-facile.js:207-209 | A row qualifies exactly when each lower-cased name occurs somewhere in the lower-cased row text. |
| `ScoreRows.FindScoreRowSymmetric` | Plugins/Coupe-facile.js:208-209 | Swapping the two players never changes the row chosen. |
| `ScoreRows.FindScoreRowIgnoresCase` | Plugins/Coupe-facile.js:207-209 | Lower-casing the names before the lookup does not change the row chosen. |
| `ScoreRows.ButtonlessRowIgnored` | Plugins/Coupe-facile.js:211-216 | Removing a row without a button from the table does not change whether a button is clicked. |
| `PendingPlayers.CellName` | Plugins/Coupe-facile.js:153-157 | A cell contributes a name exactly when it exists and holds a character that is not `\s`. The name is the cell's trimmed text, never empty. |
| `PendingPlayers.PlayerListNames` | Plugins/Coupe-facile.js:152-158 | The collected list holds no empty name. Each of its names comes from a cell of some row, and every name of every row is in it. |
| `PendingPlayers.Dedup` | Plugins/Coupe-facile.js:160 | Spreading a `Set` of the list leaves no duplicates and the same names. Names appear in the order of their first appearance in the list. |
| `PendingPlayers.UniqueInOrder` | Plugins/Coupe-facile.js:160 | A single pass with a set of names already seen computes the same de-duplicated list. |
| `PendingPlayers.ExtractPlayers` | Plugins/Coupe-facile.js:148-160 | The output has no duplicates and no empty names. Each name comes from some row, and each row's names are present. |
| `PendingPlayers.RowsInOrder` | Plugins/Coupe-facile.js:152-160 | The names read from the first rows open the list, in the same order, whatever rows follow. |
| `PendingPlayers.FirstPlayerFirst` | Plugins/Coupe-facile.js:153-160 | For any row with two different names that no earlier row holds, the list read so far continues with the first player and then the second. |
| `Mentions.JidsNameMentions` | Plugins/Coupe-facile.js:275 | There is one mentioned id per player, in order, and each id is that player's name followed by `@s.whatsapp.net`. |
| `Mentions.JidUser` | Plugins/Coupe-facile.js:275 | Dropping the `@s.whatsapp.net` domain recovers the user part of an id. An id without that domain has no user part. |
| `Mentions.CaptionTagsMatchJids` | Plugins/Coupe-facile.js:265-275 | When no name holds a space, the text after the caption's blank line splits at spaces into one `@` tag per mentioned id, in the same order. Each tag without its `@` is the player its id names. |
| `Mentions.MentionTextSplits` | Plugins/Coupe-facile.js:267 | If no name contains a space, splitting the mention text at spaces gives one `@name` tag per player, in order. Each tag without its `@` is the name. |
| `Mentions.MentionTextIsJoin` | Plugins/Coupe-facile.js:514 | Without the empty-list guard, as in the hourly reminder, the mention text is the same. |
| `ActiveGroups.HandleActivation` | Plugins/Coupe-facile.js:464-491 | The map changes only for an admin in a group. Start sets the chat's flag, stop removes the chat, and every other group's entry is unchanged. Outside a group, or for a non-admin, the reply is the matching refusal. |
| `ActiveGroups.SetEntry` | Plugins/Coupe-facile.js:468 | `Map.set` gives the map updated at the key. A key already present keeps its place; a new key goes last. Keys stay distinct. |
| `ActiveGroups.DeleteEntry` | Plugins/Coupe-facile.js:491 | `Map.delete` gives the map without the key and keeps keys distinct. It takes out exactly the key's entry and keeps the others in order; a table without the key is left as it is. |
| `ActiveGroups.HandleActivationInOrder` | Plugins/Coupe-facile.js:464-491 | The ordered table after a command holds exactly the map the command produces. |
| `ActiveGroups.VisitActive` | Plugins/Coupe-facile.js:505-506 | Over the map as it stands when the loop starts, a pass that runs to the end acts on exactly the groups whose flag is set, each once, in the map's insertion order. The daily task's loop at line 538 is the same. |
| `ActiveGroups.VisitedAll` | Plugins/Coupe-facile.js:505-506 | Once every entry is read, the groups collected are the groups served, each once, in entry order. |
| `ActiveGroups.MapOfAt` | Plugins/Coupe-facile.js:20 | In a table with distinct keys, each entry is the one the map finds for its key. |
| `ActiveGroups.AllSetKept` | Plugins/Coupe-facile.js:468 | The commands only ever store `true`, so the groups served are exactly the map's keys. |
| `ActiveGroups.ActivationIdempotent` | Plugins/Coupe-facile.js:464-491 | Running the same command twice has the same effect and reply as running it once. |
| `ActiveGroups.StopUndoesStart` | Plugins/Coupe-facile.js:487-491 | An admin's stop undoes an admin's start in a group that was not served before. |
| `ActiveGroups.ServedAfter` | Plugins/Coupe-facile.js:505-506 | After an admin's command the group is served exactly when the command was start. Every other group is served as before. |

## Left out

- Browser automation (login, screenshots, DOM queries, clicking). A row is
  its text and whether it has a score button. The lookup returns the index
  of the row whose button it would click.
- The Tesseract recognition call. Both parsers take the recognised text as
  their input.
- Files, message sending and cron scheduling. The model keeps the group
  selection of the scheduled tasks and the caption and id construction; the
  rest is I/O.
- `initBrowser` after `coupe-start` and the error replies of the `catch`
  blocks. Most of those blocks return `[]` or `null` on page or recognition
  errors; these are external failures the model does not raise.
- ScoreRows.MatchFound: the `catch` of `submitScore`
  (Plugins/Coupe-facile.js:237-240) also returns `false`, for instance when
  waiting for the match table times out before any row is read. The caller
  cannot tell that apart from "no row qualifies". The model's `false` means
  only that no row qualifies.
- ActiveGroups.VisitActive: the map is taken as unchanged while the loop
  runs. The source loop awaits inside its body
  (Plugins/Coupe-facile.js:507, 516 and 538-552), so a `coupe-stop` handled
  meanwhile can delete a later group, which the live `Map` iterator then
  skips. A `coupe-start` can add a group that the same pass then visits.
  The model also takes every group's work to succeed. In the source one
  `try` wraps the whole loop (Plugins/Coupe-facile.js:502-530, and 535-552
  for the daily task). A failure while serving one group, such as a
  rejected `conn.sendMessage` (line 516) or a throwing `fs.readFileSync`
  (line 513), ends the pass, and the later active groups are not served
  until the next run.
- Reply wording. A reply is modelled by its meaning (refusal outside a
  group, refusal for a non-admin, activated, deactivated).
- `index.js`, a process supervisor, and `commands/coupefacile.js`, dispatch
  glue. The latter destructures `extractScore` from a module that exports a
  bare function, so the model uses the function itself.
- JsText.Lower: only ASCII letters are lower-cased. The Unicode case mapping
  of `toLowerCase` is not modelled. Names are compared on ASCII case only.
- Decimal.DigitsValue: `parseInt` is an unbounded natural number. The
  rounding of very long digit runs to a double is not modelled.
- Characters are Unicode scalar values, while JavaScript strings are UTF-16
  code units. No class in either pattern matches a surrogate, so the
  captures agree.
- ScoreCapture.VersusLineRoundTrip: covers lines written with single spaces
  and a scores part with no spaces. Other spellings that the pattern
  accepts are covered only by `AnalyzeScoreText`'s general contract.
- OcrScore.LineRoundTrip: covers single spaces around the score. When a
  name is written glued to the digits, the greedy `\w+` keeps all but one
  digit. That case is covered only by `ExtractScore`'s general contract.

=== FILE: active_groups.dfy ===
/**
 The set of groups the plugin serves: `activeGroups`, a map from a chat id
 to a flag. `coupe-start` and `coupe-stop` change it, for the chat they are
 sent in, only when that chat is a group and the sender is one of its
 admins; the scheduled tasks visit the groups whose flag is set.
 */
module ActiveGroups {
  import opened Seqs

  type GroupId = string

  datatype Command = Start | Stop

  /** The reply the command sends back, by meaning rather than wording. */
  datatype Reply = OnlyInGroups | OnlyAdmins | Activated | Deactivated

  datatype Handled = Handled(groups: map<GroupId, bool>, reply: Reply)

  /** Running `coupe-start` or `coupe-stop` in chat `from`. */
  function HandleActivation(groups: map<GroupId, bool>, cmd: Command, from: GroupId,
                            isGroup: bool, isGroupAdmins: bool): (h: Handled)
    ensures h.groups != groups ==> isGroup && isGroupAdmins
    ensures !isGroup ==> h.reply == OnlyInGroups
    ensures isGroup && !isGroupAdmins ==> h.reply == OnlyAdmins
    ensures isGroup && isGroupAdmins && cmd == Start ==> from in h.groups && h.groups[from] && h.reply == Activated
    ensures isGroup && isGroupAdmins && cmd == Stop ==> from !in h.groups && h.reply == Deactivated
    ensures forall g :: g != from ==> (g in h.groups <==> g in groups)
    ensures forall g :: g != from && g in groups ==> h.groups[g] == groups[g]
  {
    if !isGroup then Handled(groups, OnlyInGroups)
    else if !isGroupAdmins then Handled(groups, OnlyAdmins)
    else match cmd
      case Start => Handled(groups[from := true], Activated)
      case Stop => Handled(groups - {from}, Deactivated)
  }

  /** The groups the hourly and daily tasks visit: those whose flag is set. */
  function Served(groups: map<GroupId, bool>): (served: set<GroupId>)
    ensures forall g :: g in served <==> g in groups && groups[g]
  {
    set g | g in groups && groups[g]
  }

  /** One `[groupId, isActive]` pair of the map, as `for ... of` yields it. */
  datatype Entry = Entry(id: GroupId, active: bool)

  /** A JavaScript `Map` holds each key once. */
  predicate DistinctIds(es: seq<Entry>) {
    forall i, j :: 0 <= i < j < |es| ==> es[i].id != es[j].id
  }

  /** The contents of the map whose entries, in insertion order, are `es`. */
  function MapOf(es: seq<Entry>): map<GroupId, bool> {
    if es == [] then map[] else MapOf(es[1..])[es[0].id := es[0].active]
  }

  /** `Map.prototype.set`: a key already present keeps its place and takes
      the new value; a new key goes at the end. */
  function SetEntry(es: seq<Entry>, g: GroupId, v: bool): (r: seq<Entry>)
    requires DistinctIds(es)
    ensures DistinctIds(r)
    ensures MapOf(r) == MapOf(es)[g := v]
    ensures g in MapOf(es) ==> |r| == |es| && forall k :: 0 <= k < |es| ==> r[k].id == es[k].id
    ensures g !in MapOf(es) ==> r == es + [Entry(g, v)]
  {
    if g in MapOf(es) then
      AssignMap(es, g, v);
      Assign(es, g, v)
    else
      AppendNew(es, Entry(g, v));
      es + [Entry(g, v)]
  }

  /** `Map.prototype.delete`: the other entries keep their order. */
  function DeleteEntry(es: seq<Entry>, g: GroupId): (r: seq<Entry>)
    requires DistinctIds(es)
    ensures DistinctIds(r)
    ensures MapOf(r) == MapOf(es) - {g}
    ensures forall k :: 0 <= k < |r| ==> r[k] in es && r[k].id != g
    ensures g !in MapOf(es) ==> r == es
    ensures g in MapOf(es) ==> r == es[..IndexOf(es, g)] + es[IndexOf(es, g) + 1..]
  {
    RemoveMap(es, g);
    RemoveDistinct(es, g);
    if g in MapOf(es) then
      RemoveOnce(es, g);
      Remove(es, g)
    else
      RemoveAbsent(es, g);
      Remove(es, g)
  }

  /** The table of entries after `coupe-start` or `coupe-stop`. */
  function HandleActivationInOrder(es: seq<Entry>, cmd: Command, from: GroupId,
                                   isGroup: bool, isGroupAdmins: bool): (r: seq<Entry>)
    requires DistinctIds(es)
    ensures DistinctIds(r)
    ensures MapOf(r) == HandleActivation(MapOf(es), cmd, from, isGroup, isGroupAdmins).groups
  {
    if !isGroup || !isGroupAdmins then es
    else match cmd
      case Start => SetEntry(es, from, true)
      case Stop => DeleteEntry(es, from)
  }

  /** The position of group `g` among the entries. */
  function IndexOf(es: seq<Entry>, g: GroupId): (i: nat)
    requires g in MapOf(es)
    ensures i < |es| && es[i].id == g
  {
    if es[0].id == g then 0 else IndexOf(es[1..], g) + 1
  }

  /** One pass of `for (let [groupId, isActive] of activeGroups) if (isActive) ...`
      over the entries: the groups it acts on, in the order it reaches them. */
  method VisitActive(es: seq<Entry>) returns (visited: seq<GroupId>)
    requires DistinctIds(es)
    ensures forall g :: g in visited <==> g in Served(MapOf(es))
    ensures forall a, b :: 0 <= a < b < |visited| ==> visited[a] != visited[b]
    ensures forall a, b :: 0 <= a < b < |visited| ==>
      visited[a] in MapOf(es) && visited[b] in MapOf(es) && IndexOf(es, visited[a]) < IndexOf(es, visited[b])
  {
    visited := [];
    ghost var at: seq<nat> := [];
    for i := 0 to |es|
      invariant VisitedUpTo(es, i, visited, at)
    {
      if es[i].active {
        visited := visited + [es[i].id];
        at := at + [i];
      }
    }
    VisitedAll(es, visited, at);
  }

  /** `visited` holds, in order, the ids of the active entries among the
      first `i`, and `at` says where each of them was found. */
  ghost predicate VisitedUpTo(es: seq<Entry>, i: nat, visited: seq<GroupId>, at: seq<nat>) {
    && i <= |es|
    && |at| == |visited|
    && (forall a :: 0 <= a < |at| ==> at[a] < i && es[at[a]].id == visited[a] && es[at[a]].active)
    && (forall a, b :: 0 <= a < b < |at| ==> at[a] < at[b])
    && (forall k :: 0 <= k < i && es[k].active ==> es[k].id in visited)
  }

  /** Once every entry is read, the groups visited are the groups served,
      each once, in the map's order. */
  lemma VisitedAll(es: seq<Entry>, visited: seq<GroupId>, at: seq<nat>)
    requires DistinctIds(es) && VisitedUpTo(es, |es|, visited, at)
    ensures forall g :: g in visited <==> g in Served(MapOf(es))
    ensures forall a, b :: 0 <= a < b < |visited| ==> visited[a] != visited[b]
    ensures forall a, b :: 0 <= a < b < |visited| ==>
      visited[a] in MapOf(es) && visited[b] in MapOf(es) && IndexOf(es, visited[a]) < IndexOf(es, visited[b])
  {
    forall a | 0 <= a < |visited|
      ensures visited[a] in Served(MapOf(es)) && visited[a] in MapOf(es) && IndexOf(es, visited[a]) == at[a]
    {
      MapOfAt(es, at[a]);
      IndexOfAt(es, at[a]);
    }
    forall g | g in Served(MapOf(es))
      ensures g in visited
    {
      var k := IndexOf(es, g);
      MapOfAt(es, k);
    }
  }

  /** Entry `k` is the one the map finds for its key. */
  lemma {:induction false} MapOfAt(es: seq<Entry>, k: nat)
    requires DistinctIds(es) && k < |es|
    ensures es[k].id in MapOf(es) && MapOf(es)[es[k].id] == es[k].active
  {
    if k > 0 {
      MapOfAt(es[1..], k - 1);
    }
  }

  /** Each key sits at one position only. */
  lemma {:induction false} IndexOfAt(es: seq<Entry>, k: nat)
    requires DistinctIds(es) && k < |es|
    ensures es[k].id in MapOf(es) && IndexOf(es, es[k].id) == k
  {
    if k > 0 {
      assert es[0].id != es[k].id;
      IndexOfAt(es[1..], k - 1);
    }
  }

  /** Overwrites the value of every entry for `g`, in place. */
  function Assign(es: seq<Entry>, g: GroupId, v: bool): (r: seq<Entry>)
    ensures |r| == |es|
    ensures forall k :: 0 <= k < |es| ==> r[k].id == es[k].id
    ensures forall k :: 0 <= k < |es| ==> r[k].active == if es[k].id == g then v else es[k].active
  {
    if es == [] then [] else [Entry(es[0].id, if es[0].id == g then v else es[0].active)] + Assign(es[1..], g, v)
  }

  /** Drops every entry for `g`. */
  function Remove(es: seq<Entry>, g: GroupId): (r: seq<Entry>)
    ensures forall k :: 0 <= k < |r| ==> r[k] in es && r[k].id != g
  {
    if es == [] then []
    else if es[0].id == g then Remove(es[1..], g)
    else [es[0]] + Remove(es[1..], g)
  }

  /** A table keeps its keys distinct without its first entry, whose key no
      later entry repeats. */
  lemma DistinctTail(es: seq<Entry>)
    requires es != [] && DistinctIds(es)
    ensures DistinctIds(es[1..])
    ensures forall e :: e in es[1..] ==> e.id != es[0].id
  {
    forall e | e in es[1..]
      ensures e.id != es[0].id
    {
      var j :| 0 <= j < |es[1..]| && es[1..][j] == e;
      assert es[j + 1] == e;
    }
  }

  lemma DistinctCons(x: Entry, t: seq<Entry>)
    requires DistinctIds(t)
    requires forall e :: e in t ==> e.id != x.id
    ensures DistinctIds([x] + t)
  {
    var r := [x] + t;
    forall i, j | 0 <= i < j < |r|
      ensures r[i].id != r[j].id
    {
      if i > 0 {
        assert r[i] == t[i - 1] && r[j] == t[j - 1];
      } else {
        assert r[j] == t[j - 1];
      }
    }
  }

  lemma UpdateTwice<K, V>(m: map<K, V>, a: K, x: V, y: V)
    ensures m[a := x][a := y] == m[a := y]
  {
  }

  lemma UpdateSwap<K, V>(m: map<K, V>, a: K, x: V, b: K, y: V)
    requires a != b
    ensures m[a := x][b := y] == m[b := y][a := x]
  {
  }

  lemma RemoveUpdated<K, V>(m: map<K, V>, a: K, x: V)
    ensures m[a := x] - {a} == m - {a}
  {
  }

  lemma RemoveSwap<K, V>(m: map<K, V>, a: K, x: V, b: K)
    requires a != b
    ensures m[a := x] - {b} == (m - {b})[a := x]
  {
  }

  lemma {:induction false} AssignMap(es: seq<Entry>, g: GroupId, v: bool)
    ensures MapOf(Assign(es, g, v)) == if g in MapOf(es) then MapOf(es)[g := v] else MapOf(es)
  {
    if es != [] {
      var e := es[0];
      var rest := MapOf(es[1..]);
      var head := Entry(e.id, if e.id == g then v else e.active);
      ConsParts(head, Assign(es[1..], g, v));
      AssignMap(es[1..], g, v);
      if e.id == g {
        UpdateTwice(rest, g, v, v);
        UpdateTwice(rest, g, e.active, v);
      } else if g in rest {
        UpdateSwap(rest, g, v, e.id, e.active);
      }
    }
  }

  lemma {:induction false} RemoveMap(es: seq<Entry>, g: GroupId)
    ensures MapOf(Remove(es, g)) == MapOf(es) - {g}
  {
    if es != [] {
      var e := es[0];
      RemoveMap(es[1..], g);
      if e.id == g {
        RemoveUpdated(MapOf(es[1..]), g, e.active);
      } else {
        ConsParts(e, Remove(es[1..], g));
        RemoveSwap(MapOf(es[1..]), e.id, e.active, g);
      }
    }
  }

  /** A key no entry holds is not in the map. */
  lemma {:induction false} NoEntryNoKey(es: seq<Entry>, g: GroupId)
    requires forall e :: e in es ==> e.id != g
    ensures g !in MapOf(es)
  {
    if es != [] {
      NoEntryNoKey(es[1..], g);
    }
  }

  /** Deleting a key the map does not hold changes nothing. */
  lemma {:induction false} RemoveAbsent(es: seq<Entry>, g: GroupId)
    requires g !in MapOf(es)
    ensures Remove(es, g) == es
  {
    if es != [] {
      RemoveAbsent(es[1..], g);
      ConsParts(es[0], es[1..]);
    }
  }

  /** Deleting a key held once takes out exactly its entry. */
  lemma {:induction false} RemoveOnce(es: seq<Entry>, g: GroupId)
    requires DistinctIds(es) && g in MapOf(es)
    ensures Remove(es, g) == es[..IndexOf(es, g)] + es[IndexOf(es, g) + 1..]
  {
    DistinctTail(es);
    if es[0].id == g {
      NoEntryNoKey(es[1..], g);
      RemoveAbsent(es[1..], g);
      assert es[..0] + es[1..] == es[1..];
    } else {
      var j := IndexOf(es[1..], g);
      assert IndexOf(es, g) == j + 1;
      RemoveOnce(es[1..], g);
      RemoveAtTail(es, j + 1);
      assert Remove(es, g) == [es[0]] + Remove(es[1..], g);
    }
  }

  lemma {:induction false} RemoveDistinct(es: seq<Entry>, g: GroupId)
    requires DistinctIds(es)
    ensures DistinctIds(Remove(es, g))
  {
    if es != [] {
      DistinctTail(es);
      RemoveDistinct(es[1..], g);
      if es[0].id != g {
        DistinctCons(es[0], Remove(es[1..], g));
      }
    }
  }

  /** Adding an entry for a new key puts it last and leaves the others as they were. */
  lemma AppendNew(es: seq<Entry>, e: Entry)
    requires DistinctIds(es) && e.id !in MapOf(es)
    ensures DistinctIds(es + [e])
    ensures MapOf(es + [e]) == MapOf(es)[e.id := e.active]
  {
    AppendNewMap(es, e);
    var r := es + [e];
    forall i, j | 0 <= i < j < |r|
      ensures r[i].id != r[j].id
    {
      if j == |es| {
        MapOfAt(es, i);
      }
    }
  }

  lemma {:induction false} AppendNewMap(es: seq<Entry>, e: Entry)
    requires e.id !in MapOf(es)
    ensures MapOf(es + [e]) == MapOf(es)[e.id := e.active]
  {
    if es == [] {
      assert [] + [e] == [e];
      ConsParts(e, []);
    } else {
      AppendNewMap(es[1..], e);
      FrontOfAppend(es, [e]);
      UpdateSwap(MapOf(es[1..]), e.id, e.active, es[0].id, es[0].active);
    }
  }

  /** The commands only ever store `true`. */
  predicate AllSet(groups: map<GroupId, bool>) {
    forall g :: g in groups ==> groups[g]
  }

  /** Each command keeps every stored flag `true`, so the groups served
      are exactly the groups in the map. */
  lemma AllSetKept(groups: map<GroupId, bool>, cmd: Command, from: GroupId, isGroup: bool, isGroupAdmins: bool)
    requires AllSet(groups)
    ensures AllSet(HandleActivation(groups, cmd, from, isGroup, isGroupAdmins).groups)
    ensures Served(HandleActivation(groups, cmd, from, isGroup, isGroupAdmins).groups)
         == HandleActivation(groups, cmd, from, isGroup, isGroupAdmins).groups.Keys
  {
  }

  /** Running either command twice in a row is the same as running it once. */
  lemma ActivationIdempotent(groups: map<GroupId, bool>, cmd: Command, from: GroupId, isGroup: bool, isGroupAdmins: bool)
    ensures var once := HandleActivation(groups, cmd, from, isGroup, isGroupAdmins);
            HandleActivation(once.groups, cmd, from, isGroup, isGroupAdmins) == once
  {
  }

  /** An admin's `coupe-stop` undoes an admin's `coupe-start` in a group that
      was not served before. */
  lemma StopUndoesStart(groups: map<GroupId, bool>, from: GroupId)
    requires from !in groups
    ensures HandleActivation(HandleActivation(groups, Start, from, true, true).groups, Stop, from, true, true).groups == groups
  {
    var started := groups[from := true];
    assert started - {from} == groups;
  }

  /** After an admin's command the group is served exactly when the command
      was `coupe-start`; every other group is served as before. */
  lemma ServedAfter(groups: map<GroupId, bool>, cmd: Command, from: GroupId)
    ensures from in Served(HandleActivation(groups, cmd, from, true, true).groups) <==> cmd == Start
    ensures forall g :: g != from ==>
      (g in Served(HandleActivation(groups, cmd, from, true, true).groups) <==> g in Served(groups))
  {
  }
}

=== FILE: backtrack.dfy ===
/**
 A backtracking matcher for the small family of regular expressions the score
 parsers use: a sequence of items, each either a greedily quantified
 one-character class or a non-capturing group of literal alternatives matched
 ignoring ASCII case. It follows the ECMAScript search order: `match` with a
 non-global regex tries start positions from left to right, and at each start
 explores the choices depth-first, longest count first for a greedy
 quantifier and left to right for alternatives; the first complete path wins.

 A `Trace` records what every item consumed, so the groups of a match are
 entries of its trace. `MatchesFrom` says declaratively which traces are
 matches; `NoLaterThan` is the order in which the search meets them; and
 `IsFirstMatch` pins down the one match the search reports.
 */
module Backtrack {
  import opened Wrappers
  import opened JsText
  import opened Seqs

  /** The one-character classes the patterns use. `Bracket(cs, withSpace)` is a
      bracket expression listing `cs`, plus `\s` when `withSpace` holds. */
  datatype CharClass = Word | Digit | Space | Bracket(chars: seq<char>, withSpace: bool)

  predicate InClass(c: char, cls: CharClass) {
    match cls
    case Word => IsWordChar(c)
    case Digit => IsDigitChar(c)
    case Space => IsJsSpace(c)
    case Bracket(cs, withSpace) => c in cs || (withSpace && IsJsSpace(c))
  }

  predicate AllIn(s: string, cls: CharClass) {
    forall k :: 0 <= k < |s| ==> InClass(s[k], cls)
  }

  /** Greedy quantifiers: none (exactly once), `?`, `*` and `+`. */
  datatype Quant = Once | Opt | Star | Plus

  function MinCount(q: Quant): nat {
    if q == Once || q == Plus then 1 else 0
  }

  predicate CountAllowed(q: Quant, n: nat) {
    MinCount(q) <= n && ((q == Once || q == Opt) ==> n <= 1)
  }

  /** The count a greedy quantifier tries first when `run` characters of its
      class lie ahead. */
  function Longest(q: Quant, run: nat): nat {
    if (q == Once || q == Opt) && run > 1 then 1 else run
  }

  /** An element of a pattern. The alternatives of `Literals` are written in
      lower case and tried in order. */
  datatype Item = Repeat(cls: CharClass, q: Quant) | Literals(alts: seq<string>)

  type Pattern = seq<Item>

  /** What one item consumed; `alt` is the alternative a `Literals` item took
      (0 for a `Repeat`). */
  datatype Piece = Piece(alt: nat, s: string)

  type Trace = seq<Piece>

  /** Position-free part of an item's match. */
  predicate Fits(item: Item, piece: Piece) {
    match item
    case Repeat(cls, q) => piece.alt == 0 && CountAllowed(q, |piece.s|) && AllIn(piece.s, cls)
    case Literals(alts) => piece.alt < |alts| && Lower(piece.s) == alts[piece.alt]
  }

  predicate IsPrefix(a: string, s: string) {
    |a| <= |s| && s[..|a|] == a
  }

  /** `t` is a way for `pat` to match at the start of `s`; the regex is not
      anchored at the end, so any rest of `s` may follow. */
  predicate MatchesFrom(pat: Pattern, s: string, t: Trace)
    decreases |pat|
  {
    && |t| == |pat|
    && (|pat| > 0 ==>
          && Fits(pat[0], t[0])
          && IsPrefix(t[0].s, s)
          && MatchesFrom(pat[1..], s[|t[0].s|..], t[1..]))
  }

  /** `t` is a match of `pat` starting at index `i` of `text`. */
  predicate MatchesAt(pat: Pattern, text: string, i: nat, t: Trace) {
    i <= |text| && MatchesFrom(pat, text[i..], t)
  }

  /** The backtracking search tries choice `a` for `item` before choice `b`. */
  predicate TriedBefore(item: Item, a: Piece, b: Piece) {
    if item.Repeat? then |a.s| > |b.s| else a.alt < b.alt
  }

  /** The search meets `t` no later than `u`: the order is lexicographic over
      the items, each item ordered by `TriedBefore`. */
  predicate NoLaterThan(pat: Pattern, t: Trace, u: Trace)
    decreases |pat|
  {
    || |pat| == 0 || |t| == 0 || |u| == 0
    || TriedBefore(pat[0], t[0], u[0])
    || (t[0] == u[0] && NoLaterThan(pat[1..], t[1..], u[1..]))
  }

  /** Number of leading characters of `s` in `cls`. */
  function Run(s: string, cls: CharClass): (n: nat)
    ensures n <= |s|
    ensures AllIn(s[..n], cls)
    ensures n == |s| || !InClass(s[n], cls)
    decreases |s|
  {
    if |s| > 0 && InClass(s[0], cls) then
      var n := 1 + Run(s[1..], cls);
      assert s[..n] == [s[0]] + s[1..][..n - 1];
      n
    else 0
  }

  /** A run of class characters at the front of `s` is no longer than `Run`. */
  lemma {:induction false} RunBound(s: string, cls: CharClass, a: string)
    requires IsPrefix(a, s) && AllIn(a, cls)
    ensures |a| <= Run(s, cls)
    decreases |a|
  {
    if |a| > 0 {
      assert s[0] == a[0];
      assert s[1..][..|a| - 1] == a[1..];
      RunBound(s[1..], cls, a[1..]);
    }
  }

  /** A chunk of class characters followed by something outside the class is
      exactly the run at the front of `chunk + rest`. */
  lemma {:induction false} RunOfChunk(chunk: string, rest: string, cls: CharClass)
    requires AllIn(chunk, cls)
    requires |rest| == 0 || !InClass(rest[0], cls)
    ensures Run(chunk + rest, cls) == |chunk|
    decreases |chunk|
  {
    if |chunk| == 0 {
      assert chunk + rest == rest;
    } else {
      assert (chunk + rest)[0] == chunk[0];
      assert (chunk + rest)[1..] == chunk[1..] + rest;
      RunOfChunk(chunk[1..], rest, cls);
    }
  }

  /** The first match the search meets for `pat` at the start of `s`. */
  function MatchFrom(pat: Pattern, s: string): (r: Option<Trace>)
    ensures r.Some? ==> MatchesFrom(pat, s, r.value)
    decreases |pat|, 2, 0
  {
    if |pat| == 0 then Some([])
    else match pat[0]
      case Repeat(cls, q) => TryCounts(pat, s, Longest(q, Run(s, cls)))
      case Literals(alts) => TryAlts(pat, s, 0)
  }

  /** A greedy `Repeat` at the head of `pat`: counts `k`, `k - 1`, ... down to
      the quantifier's minimum. */
  function TryCounts(pat: Pattern, s: string, k: nat): (r: Option<Trace>)
    requires |pat| > 0 && pat[0].Repeat?
    requires k <= Longest(pat[0].q, Run(s, pat[0].cls))
    ensures r.Some? ==> MatchesFrom(pat, s, r.value)
    decreases |pat|, 1, k
  {
    if k < MinCount(pat[0].q) then None
    else
      match MatchFrom(pat[1..], s[k..])
      case Some(t) =>
        var piece := Piece(0, s[..k]);
        assert AllIn(s[..k], pat[0].cls) by {
          assert forall j :: 0 <= j < k ==> s[..k][j] == s[..Run(s, pat[0].cls)][j];
        }
        ConsParts(piece, t);
        Some([piece] + t)
      case None =>
        if k == 0 then None else TryCounts(pat, s, k - 1)
  }

  /** `word`, ignoring ASCII case, starts `s`. */
  predicate LiteralAhead(word: string, s: string) {
    |word| <= |s| && Lower(s[..|word|]) == word
  }

  /** A `Literals` group at the head of `pat`: alternatives `j`, `j + 1`, ... */
  function TryAlts(pat: Pattern, s: string, j: nat): (r: Option<Trace>)
    requires |pat| > 0 && pat[0].Literals? && j <= |pat[0].alts|
    ensures r.Some? ==> MatchesFrom(pat, s, r.value)
    decreases |pat|, 1, |pat[0].alts| - j
  {
    if j == |pat[0].alts| then None
    else
      var w := pat[0].alts[j];
      if LiteralAhead(w, s) then
        match MatchFrom(pat[1..], s[|w|..])
        case Some(t) =>
          var piece := Piece(j, s[..|w|]);
          ConsParts(piece, t);
          Some([piece] + t)
        case None => TryAlts(pat, s, j + 1)
      else TryAlts(pat, s, j + 1)
  }

  /** Every match of `pat` at the start of `s` is found, and the one
      `MatchFrom` returns comes first in the search order. */
  lemma {:induction false} MatchFromIsFirst(pat: Pattern, s: string, u: Trace)
    requires MatchesFrom(pat, s, u)
    ensures MatchFrom(pat, s).Some?
    ensures NoLaterThan(pat, MatchFrom(pat, s).value, u)
    decreases |pat|, 2, 0
  {
    if |pat| > 0 {
      match pat[0]
      case Repeat(cls, q) =>
        RunBound(s, cls, u[0].s);
        TryCountsIsFirst(pat, s, Longest(q, Run(s, cls)), u);
      case Literals(alts) =>
        TryAltsIsFirst(pat, s, 0, u);
    }
  }

  lemma {:induction false} TryCountsIsFirst(pat: Pattern, s: string, k: nat, u: Trace)
    requires |pat| > 0 && pat[0].Repeat?
    requires k <= Longest(pat[0].q, Run(s, pat[0].cls))
    requires MatchesFrom(pat, s, u) && |u[0].s| <= k
    ensures TryCounts(pat, s, k).Some?
    ensures NoLaterThan(pat, TryCounts(pat, s, k).value, u)
    decreases |pat|, 1, k
  {
    var c := |u[0].s|;
    if k == c {
      MatchFromIsFirst(pat[1..], s[k..], u[1..]);
      var t := MatchFrom(pat[1..], s[k..]).value;
      ConsParts(Piece(0, s[..k]), t);
    } else if MatchFrom(pat[1..], s[k..]).None? {
      TryCountsIsFirst(pat, s, k - 1, u);
    }
  }

  lemma {:induction false} TryAltsIsFirst(pat: Pattern, s: string, j: nat, u: Trace)
    requires |pat| > 0 && pat[0].Literals? && j <= |pat[0].alts|
    requires MatchesFrom(pat, s, u) && j <= u[0].alt
    ensures TryAlts(pat, s, j).Some?
    ensures NoLaterThan(pat, TryAlts(pat, s, j).value, u)
    decreases |pat|, 1, |pat[0].alts| - j
  {
    var w := pat[0].alts[j];
    if j == u[0].alt {
      assert |u[0].s| == |w|;
      MatchFromIsFirst(pat[1..], s[|w|..], u[1..]);
      var t := MatchFrom(pat[1..], s[|w|..]).value;
      ConsParts(Piece(j, s[..|w|]), t);
    } else if !LiteralAhead(w, s) || MatchFrom(pat[1..], s[|w|..]).None? {
      TryAltsIsFirst(pat, s, j + 1, u);
    }
  }

  /** Two traces that each come no later than the other are the same trace. */
  lemma {:induction false} NoLaterThanAntisymmetric(pat: Pattern, t: Trace, u: Trace)
    requires |t| == |pat| == |u|
    requires NoLaterThan(pat, t, u) && NoLaterThan(pat, u, t)
    ensures t == u
    decreases |pat|
  {
    if |pat| > 0 {
      NoLaterThanAntisymmetric(pat[1..], t[1..], u[1..]);
      assert t == [t[0]] + t[1..];
      assert u == [u[0]] + u[1..];
    }
  }

  /** The match `String.prototype.match` reports: the leftmost start, and at
      that start the match the backtracking search meets first. */
  datatype Found = Found(start: nat, trace: Trace)

  ghost predicate IsFirstMatch(pat: Pattern, text: string, m: Found) {
    && MatchesAt(pat, text, m.start, m.trace)
    && (forall j: nat, u: Trace :: j < m.start ==> !MatchesAt(pat, text, j, u))
    && (forall u: Trace :: MatchesAt(pat, text, m.start, u) ==> NoLaterThan(pat, m.trace, u))
  }

  /** At most one match is the first. */
  lemma FirstMatchUnique(pat: Pattern, text: string, m1: Found, m2: Found)
    requires IsFirstMatch(pat, text, m1) && IsFirstMatch(pat, text, m2)
    ensures m1 == m2
  {
    assert MatchesAt(pat, text, m1.start, m1.trace) && MatchesAt(pat, text, m2.start, m2.trace);
    assert m1.start == m2.start;
    NoLaterThanAntisymmetric(pat, m1.trace, m2.trace);
  }

  /** Start positions `i`, `i + 1`, ..., `|text|`. */
  function SearchFrom(pat: Pattern, text: string, i: nat): (r: Option<Found>)
    requires i <= |text|
    ensures r.Some? ==> i <= r.value.start && MatchesAt(pat, text, r.value.start, r.value.trace)
    decreases |text| - i
  {
    match MatchFrom(pat, text[i..])
    case Some(t) => Some(Found(i, t))
    case None => if i == |text| then None else SearchFrom(pat, text, i + 1)
  }

  lemma {:induction false} SearchFromIsFirst(pat: Pattern, text: string, i: nat)
    requires i <= |text|
    requires forall j: nat, u: Trace :: j < i ==> !MatchesAt(pat, text, j, u)
    ensures SearchFrom(pat, text, i).Some? ==> IsFirstMatch(pat, text, SearchFrom(pat, text, i).value)
    ensures SearchFrom(pat, text, i).None? ==> forall j: nat, u: Trace :: !MatchesAt(pat, text, j, u)
    decreases |text| - i
  {
    match MatchFrom(pat, text[i..])
    case Some(t) =>
      forall u: Trace | MatchesAt(pat, text, i, u)
        ensures NoLaterThan(pat, t, u)
      {
        MatchFromIsFirst(pat, text[i..], u);
      }
    case None =>
      forall u: Trace
        ensures !MatchesAt(pat, text, i, u)
      {
        if MatchesAt(pat, text, i, u) {
          MatchFromIsFirst(pat, text[i..], u);
        }
      }
      if i < |text| {
        SearchFromIsFirst(pat, text, i + 1);
      }
  }

  /** `text.match(pattern)` for a non-global pattern. */
  function Search(pat: Pattern, text: string): (r: Option<Found>)
    ensures r.Some? ==> IsFirstMatch(pat, text, r.value)
    ensures r.None? <==> forall i: nat, u: Trace :: !MatchesAt(pat, text, i, u)
  {
    SearchFromIsFirst(pat, text, 0);
    SearchFrom(pat, text, 0)
  }

  /** Where the search is known to report `m`, it does. */
  lemma SearchReports(pat: Pattern, text: string, m: Found)
    requires IsFirstMatch(pat, text, m)
    ensures Search(pat, text) == Some(m)
  {
    FirstMatchUnique(pat, text, Search(pat, text).value, m);
  }

  /** A match at the very start of the text is the one the search reports. */
  lemma SearchAtStart(pat: Pattern, text: string, t: Trace)
    requires MatchFrom(pat, text) == Some(t)
    ensures Search(pat, text) == Some(Found(0, t))
  {
    assert text[0..] == text;
  }

  /** The piece a match records for item `k` fits that item. */
  lemma {:induction false} PieceFits(pat: Pattern, s: string, t: Trace, k: nat)
    requires MatchesFrom(pat, s, t) && k < |pat|
    ensures Fits(pat[k], t[k])
    decreases k
  {
    if k > 0 {
      PieceFits(pat[1..], s[|t[0].s|..], t[1..], k - 1);
    }
  }

  /** Every character an item consumed comes from the text. */
  lemma {:induction false} PieceInside(pat: Pattern, s: string, t: Trace, k: nat)
    requires MatchesFrom(pat, s, t) && k < |pat|
    ensures forall c :: c in t[k].s ==> c in s
    decreases k
  {
    var rest := s[|t[0].s|..];
    if k == 0 {
      assert forall c :: c in t[0].s ==> c in s[..|t[0].s|];
    } else {
      PieceInside(pat[1..], rest, t[1..], k - 1);
      assert forall c :: c in rest ==> c in s;
    }
  }

  /** Everything a trace consumed, in order. */
  function Spelled(t: Trace): string
    decreases |t|
  {
    if |t| == 0 then "" else t[0].s + Spelled(t[1..])
  }

  /** A match consumes a prefix of the text it starts at, piece after piece. */
  lemma {:induction false} MatchSpelled(pat: Pattern, s: string, t: Trace)
    requires MatchesFrom(pat, s, t)
    ensures IsPrefix(Spelled(t), s)
    decreases |pat|
  {
    if |pat| > 0 {
      var rest := s[|t[0].s|..];
      MatchSpelled(pat[1..], rest, t[1..]);
      assert s == t[0].s + rest;
      assert (t[0].s + rest)[..|Spelled(t)|] == t[0].s + rest[..|Spelled(t[1..])|];
    }
  }

  /** Peeling a greedy item: when `chunk` is the whole run of the class ahead
      and the rest of the pattern matches after it, the search takes it. */
  lemma PeelRepeat(cls: CharClass, q: Quant, tail: Pattern, chunk: string, rest: string, t: Trace)
    requires AllIn(chunk, cls) && (|rest| == 0 || !InClass(rest[0], cls))
    requires CountAllowed(q, |chunk|)
    requires MatchFrom(tail, rest) == Some(t)
    ensures MatchFrom([Repeat(cls, q)] + tail, chunk + rest) == Some([Piece(0, chunk)] + t)
  {
    var pat := [Repeat(cls, q)] + tail;
    var s := chunk + rest;
    RunOfChunk(chunk, rest, cls);
    assert pat[0] == Repeat(cls, q) && pat[1..] == tail;
    assert s[..|chunk|] == chunk && s[|chunk|..] == rest;
  }

  /** Peeling a literal group: alternative `j` is taken when the rest of the
      pattern matches after it and every earlier alternative is either not
      ahead or leaves a rest the pattern cannot match. */
  lemma {:induction false} PeelLiteral(alts: seq<string>, j: nat, tail: Pattern, chunk: string, rest: string, t: Trace)
    requires j < |alts| && Lower(chunk) == alts[j]
    requires forall i :: 0 <= i < j ==>
      !LiteralAhead(alts[i], chunk + rest) || MatchFrom(tail, (chunk + rest)[|alts[i]|..]).None?
    requires MatchFrom(tail, rest) == Some(t)
    ensures MatchFrom([Literals(alts)] + tail, chunk + rest) == Some([Piece(j, chunk)] + t)
  {
    var pat := [Literals(alts)] + tail;
    var s := chunk + rest;
    assert pat[0] == Literals(alts) && pat[1..] == tail;
    assert s[..|chunk|] == chunk && s[|chunk|..] == rest;
    TryAltsSkip(pat, s, 0, j);
  }

  /** Peeling two greedy items in a row, whose chunks are `a` and then `b`. */
  lemma PeelTwo(c1: CharClass, q1: Quant, c2: CharClass, q2: Quant, tail: Pattern,
                a: string, b: string, rest: string, t: Trace)
    requires AllIn(a, c1) && CountAllowed(q1, |a|)
    requires |b + rest| == 0 || !InClass((b + rest)[0], c1)
    requires AllIn(b, c2) && CountAllowed(q2, |b|)
    requires |rest| == 0 || !InClass(rest[0], c2)
    requires MatchFrom(tail, rest) == Some(t)
    ensures MatchFrom([Repeat(c1, q1), Repeat(c2, q2)] + tail, a + (b + rest))
         == Some([Piece(0, a), Piece(0, b)] + t)
  {
    PrependTwo(Repeat(c1, q1), Repeat(c2, q2), tail);
    PrependTwo(Piece(0, a), Piece(0, b), t);
    PeelRepeat(c2, q2, tail, b, rest, t);
    PeelRepeat(c1, q1, [Repeat(c2, q2)] + tail, a, b + rest, [Piece(0, b)] + t);
  }

  /** Peeling a greedy item that reads `a` and then an optional one that
      reads nothing. */
  lemma PeelThenNone(c1: CharClass, q1: Quant, c2: CharClass, q2: Quant, tail: Pattern,
                     a: string, rest: string, t: Trace)
    requires AllIn(a, c1) && CountAllowed(q1, |a|) && CountAllowed(q2, 0)
    requires |rest| == 0 || (!InClass(rest[0], c1) && !InClass(rest[0], c2))
    requires MatchFrom(tail, rest) == Some(t)
    ensures MatchFrom([Repeat(c1, q1), Repeat(c2, q2)] + tail, a + rest)
         == Some([Piece(0, a), Piece(0, "")] + t)
  {
    assert "" + rest == rest;
    PeelTwo(c1, q1, c2, q2, tail, a, "", rest, t);
  }

  /** Peeling the last item of a pattern, which reads the rest of the text. */
  lemma PeelLast(cls: CharClass, q: Quant, chunk: string)
    requires AllIn(chunk, cls) && CountAllowed(q, |chunk|)
    ensures MatchFrom([Repeat(cls, q)], chunk) == Some([Piece(0, chunk)])
  {
    assert chunk + "" == chunk;
    assert [Repeat(cls, q)] + [] == [Repeat(cls, q)];
    assert [Piece(0, chunk)] + [] == [Piece(0, chunk)];
    PeelRepeat(cls, q, [], chunk, "", []);
  }

  lemma {:induction false} TryAltsSkip(pat: Pattern, s: string, i: nat, j: nat)
    requires |pat| > 0 && pat[0].Literals? && i <= j < |pat[0].alts|
    requires forall k :: i <= k < j ==>
      !LiteralAhead(pat[0].alts[k], s) || MatchFrom(pat[1..], s[|pat[0].alts[k]|..]).None?
    ensures TryAlts(pat, s, i) == TryAlts(pat, s, j)
    decreases j - i
  {
    if i < j {
      TryAltsSkip(pat, s, i + 1, j);
    }
  }
}

=== FILE: decimal.dfy ===
/**
 Decimal digit strings: `parseInt` applied to a `(\d+)` capture, and the
 decimal rendering of a number that a score line is written with.
 */
module Decimal {
  import opened JsText

  function DigitValue(c: char): (v: nat)
    requires IsDigitChar(c)
    ensures v < 10
  {
    c as int - '0' as int
  }

  function DigitChar(v: nat): (c: char)
    requires v < 10
    ensures IsDigitChar(c) && DigitValue(c) == v
  {
    ('0' as int + v) as char
  }

  /** `parseInt` of a string of ASCII digits, read in base 10 with leading zeros
      ignored; the value is an unbounded natural number. */
  function DigitsValue(s: string): nat
    requires forall k :: 0 <= k < |s| ==> IsDigitChar(s[k])
    decreases |s|
  {
    if |s| == 0 then 0 else 10 * DigitsValue(s[..|s| - 1]) + DigitValue(s[|s| - 1])
  }

  /** The decimal rendering of `n`, without leading zeros (`String(n)`). */
  function ShowNat(n: nat): string
    decreases n
  {
    if n < 10 then [DigitChar(n)] else ShowNat(n / 10) + [DigitChar(n % 10)]
  }

  /** Reading the rendering of `n` back gives `n`, and the rendering is a
      non-empty run of digits. */
  lemma {:induction false} ShowNatRoundTrip(n: nat)
    ensures IsDigitRun(ShowNat(n))
    ensures DigitsValue(ShowNat(n)) == n
    decreases n
  {
    if n >= 10 {
      ShowNatRoundTrip(n / 10);
      var s := ShowNat(n);
      assert s[..|s| - 1] == ShowNat(n / 10);
    }
  }

  /** A leading zero does not change the value `parseInt` reads. */
  lemma {:induction false} LeadingZero(s: string)
    requires forall k :: 0 <= k < |s| ==> IsDigitChar(s[k])
    ensures DigitsValue("0" + s) == DigitsValue(s)
    decreases |s|
  {
    var z := "0" + s;
    if |s| > 0 {
      assert z[..|z| - 1] == "0" + s[..|s| - 1];
      LeadingZero(s[..|s| - 1]);
    }
  }
}

=== FILE: jstext.dfy ===
/**
 The JavaScript string primitives the bot relies on: the `\w`, `\d` and `\s`
 character classes of a regular expression without the `u` flag,
 `toLowerCase` restricted to ASCII, `includes`, `trim`, `join` and `split`.
 Strings are sequences of characters.
 */
module JsText {
  import opened Seqs

  /** `\w` without the `u` flag: ASCII letters, digits and underscore.
      The `i` flag does not widen it, because case-insensitive matching in
      non-unicode mode never maps a non-ASCII character onto an ASCII one. */
  predicate IsWordChar(c: char) {
    ('a' <= c <= 'z') || ('A' <= c <= 'Z') || ('0' <= c <= '9') || c == '_'
  }

  /** `\d`: the ASCII digits. */
  predicate IsDigitChar(c: char) {
    '0' <= c <= '9'
  }

  /** `\s`, which is also the set `String.prototype.trim` strips: the
      ECMAScript WhiteSpace and LineTerminator characters. */
  predicate IsJsSpace(c: char) {
    || c == '\t' || c == '\n' || c == '\U{000B}' || c == '\U{000C}' || c == '\r'
    || c == ' ' || c == '\U{00A0}' || c == '\U{1680}'
    || ('\U{2000}' <= c <= '\U{200A}')
    || c == '\U{2028}' || c == '\U{2029}' || c == '\U{202F}' || c == '\U{205F}'
    || c == '\U{3000}' || c == '\U{FEFF}'
  }

  /** No visible ASCII character is `\s`. */
  lemma VisibleNotSpace(c: char)
    requires '!' <= c <= '~'
    ensures !IsJsSpace(c)
  {
  }

  /** No `\s` character is a word character (nor, so, a digit). */
  lemma SpaceNotWord(c: char)
    requires IsJsSpace(c)
    ensures !IsWordChar(c) && !IsDigitChar(c)
  {
  }

  /** A non-empty run of `\w` characters: what a `(\w+)` group captures. */
  predicate IsWordRun(s: string) {
    |s| > 0 && forall k :: 0 <= k < |s| ==> IsWordChar(s[k])
  }

  /** A non-empty run of `\d` characters: what a `(\d+)` group captures. */
  predicate IsDigitRun(s: string) {
    |s| > 0 && forall k :: 0 <= k < |s| ==> IsDigitChar(s[k])
  }

  function AsciiLower(c: char): (d: char)
    ensures 'A' <= c <= 'Z' ==> 'a' <= d <= 'z' && d as int - c as int == 32
    ensures !('A' <= c <= 'Z') ==> d == c
  {
    if 'A' <= c <= 'Z' then (c as int + 32) as char else c
  }

  /** `toLowerCase`, on the ASCII letters only. */
  function Lower(s: string): (r: string)
    ensures |r| == |s|
    ensures forall k :: 0 <= k < |s| ==> r[k] == AsciiLower(s[k])
  {
    seq(|s|, k requires 0 <= k < |s| => AsciiLower(s[k]))
  }

  /** `c` and `d` are the same character, ASCII case aside: equal, or an
      upper-case letter and the lower-case letter 32 code points after it. */
  predicate SameLetter(c: char, d: char) {
    || c == d
    || ('A' <= c <= 'Z' && d as int == c as int + 32)
    || ('A' <= d <= 'Z' && c as int == d as int + 32)
  }

  /** `a` and `b` spell the same text, ASCII case aside. */
  predicate SameIgnoringAsciiCase(a: string, b: string) {
    |a| == |b| && forall k :: 0 <= k < |a| ==> SameLetter(a[k], b[k])
  }

  /** Two strings lower-case to the same string exactly when they differ in
      ASCII case only. */
  lemma LowerEqualIffSameCase(a: string, b: string)
    ensures Lower(a) == Lower(b) <==> SameIgnoringAsciiCase(a, b)
  {
    if Lower(a) == Lower(b) {
      forall k | 0 <= k < |a|
        ensures SameLetter(a[k], b[k])
      {
        assert AsciiLower(a[k]) == Lower(a)[k] == Lower(b)[k] == AsciiLower(b[k]);
      }
    }
    if SameIgnoringAsciiCase(a, b) {
      forall k | 0 <= k < |a|
        ensures Lower(a)[k] == Lower(b)[k]
      {
        assert SameLetter(a[k], b[k]);
      }
    }
  }

  lemma LowerTwice(s: string)
    ensures Lower(Lower(s)) == Lower(s)
  {
    assert forall k :: 0 <= k < |s| ==> AsciiLower(AsciiLower(s[k])) == AsciiLower(s[k]);
  }

  /** `needle` sits in `hay` at index `k`. */
  predicate OccursAt(hay: string, needle: string, k: nat) {
    k + |needle| <= |hay| && hay[k..k + |needle|] == needle
  }

  /** `String.prototype.includes`: some index of `hay` starts a copy of `needle`
      (the empty string is found everywhere). */
  function Contains(hay: string, needle: string): (b: bool)
    ensures b <==> exists k: nat :: OccursAt(hay, needle, k)
    decreases |hay|
  {
    if |needle| <= |hay| && hay[..|needle|] == needle then
      assert OccursAt(hay, needle, 0);
      true
    else if |hay| == 0 then
      false
    else
      var rest := Contains(hay[1..], needle);
      ContainsShift(hay, needle);
      rest
  }

  /** Past index 0, the occurrences in `hay` are those in `hay[1..]` moved by one. */
  lemma ContainsShift(hay: string, needle: string)
    requires |hay| > 0
    requires !OccursAt(hay, needle, 0)
    ensures (exists k: nat :: OccursAt(hay, needle, k)) <==> (exists k: nat :: OccursAt(hay[1..], needle, k))
  {
    forall k: nat | OccursAt(hay, needle, k)
      ensures OccursAt(hay[1..], needle, k - 1)
    {
      assert k != 0;
      assert hay[1..][k - 1..k - 1 + |needle|] == hay[k..k + |needle|];
    }
    forall k: nat | OccursAt(hay[1..], needle, k)
      ensures OccursAt(hay, needle, k + 1)
    {
      assert hay[1..][k..k + |needle|] == hay[k + 1..k + 1 + |needle|];
    }
  }

  /** Drops the leading `\s` characters. */
  function TrimStart(s: string): (r: string)
    ensures |r| <= |s|
    decreases |s|
  {
    if |s| > 0 && IsJsSpace(s[0]) then TrimStart(s[1..]) else s
  }

  /** Drops the trailing `\s` characters. */
  function TrimEnd(s: string): (r: string)
    ensures |r| <= |s|
    decreases |s|
  {
    if |s| > 0 && IsJsSpace(s[|s| - 1]) then TrimEnd(s[..|s| - 1]) else s
  }

  /** `String.prototype.trim`. */
  function Trim(s: string): string {
    TrimEnd(TrimStart(s))
  }

  /** What `TrimStart` keeps is the end of `s` after a run of `\s`, and it
      does not start with `\s`. */
  lemma {:induction false} TrimStartSpec(s: string)
    ensures s[|s| - |TrimStart(s)|..] == TrimStart(s)
    ensures forall k :: 0 <= k < |s| - |TrimStart(s)| ==> IsJsSpace(s[k])
    ensures |TrimStart(s)| > 0 ==> !IsJsSpace(TrimStart(s)[0])
    decreases |s|
  {
    if |s| > 0 && IsJsSpace(s[0]) {
      TrimStartSpec(s[1..]);
      assert s[1..][|s| - 1 - |TrimStart(s)|..] == s[|s| - |TrimStart(s)|..];
      forall k | 1 <= k < |s| - |TrimStart(s)|
        ensures IsJsSpace(s[k])
      {
        assert s[k] == s[1..][k - 1];
      }
    }
  }

  /** What `TrimEnd` keeps is the start of `s` before a run of `\s`, and it
      does not end with `\s`. */
  lemma {:induction false} TrimEndSpec(s: string)
    ensures s[..|TrimEnd(s)|] == TrimEnd(s)
    ensures forall k :: |TrimEnd(s)| <= k < |s| ==> IsJsSpace(s[k])
    ensures |TrimEnd(s)| > 0 ==> !IsJsSpace(TrimEnd(s)[|TrimEnd(s)| - 1])
    decreases |s|
  {
    if |s| > 0 && IsJsSpace(s[|s| - 1]) {
      TrimEndSpec(s[..|s| - 1]);
      assert s[..|s| - 1][..|TrimEnd(s)|] == s[..|TrimEnd(s)|];
      forall k | |TrimEnd(s)| <= k < |s| - 1
        ensures IsJsSpace(s[k])
      {
        assert s[k] == s[..|s| - 1][k];
      }
    }
  }

  /** `trim` keeps a slice of `s` that neither starts nor ends with `\s`, and
      everything it drops around that slice is `\s`. */
  lemma TrimSpec(s: string)
    ensures exists i: nat :: (OccursAt(s, Trim(s), i)
      && (forall k :: 0 <= k < i ==> IsJsSpace(s[k]))
      && (forall k :: i + |Trim(s)| <= k < |s| ==> IsJsSpace(s[k])))
    ensures |Trim(s)| > 0 ==> !IsJsSpace(Trim(s)[0]) && !IsJsSpace(Trim(s)[|Trim(s)| - 1])
  {
    var t := TrimStart(s);
    TrimStartSpec(s);
    TrimEndSpec(t);
    var i := |s| - |t|;
    var r := Trim(s);
    SliceOfSuffix(s, t, i, |r|);
    assert OccursAt(s, r, i);
    forall k | i + |r| <= k < |s|
      ensures IsJsSpace(s[k])
    {
      assert s[k] == t[k - i];
    }
    if |r| > 0 {
      assert r[0] == t[0];
    }
  }

  /** `trim` gives the empty string exactly when every character is `\s`. */
  lemma TrimBlank(s: string)
    ensures Trim(s) == "" <==> forall k :: 0 <= k < |s| ==> IsJsSpace(s[k])
  {
    var t := TrimStart(s);
    TrimStartSpec(s);
    TrimEndSpec(t);
    var i := |s| - |t|;
    if Trim(s) == "" {
      assert |t| == 0;
    } else {
      assert Trim(s)[0] == t[0] == s[i];
    }
  }

  /** `trim` removes nothing from a string that neither starts nor ends with `\s`. */
  lemma TrimKeeps(s: string)
    requires |s| > 0 ==> !IsJsSpace(s[0]) && !IsJsSpace(s[|s| - 1])
    ensures Trim(s) == s
  {
  }

  /** `trim` of a `(\w+)` capture is the capture itself. */
  lemma TrimWordRun(s: string)
    requires IsWordRun(s)
    ensures Trim(s) == s
  {
    TrimKeeps(s);
  }

  /** `Array.prototype.join(sep)`. */
  function Join(sep: string, parts: seq<string>): string
    decreases |parts|
  {
    if |parts| == 0 then ""
    else if |parts| == 1 then parts[0]
    else parts[0] + sep + Join(sep, parts[1..])
  }

  /** `String.prototype.split(c)` for a one-character separator: the pieces
      between the separators, so there is always at least one piece. */
  function SplitOn(s: string, c: char): (parts: seq<string>)
    ensures |parts| > 0
    decreases |s|
  {
    if |s| == 0 then [""]
    else if s[0] == c then [""] + SplitOn(s[1..], c)
    else
      var rest := SplitOn(s[1..], c);
      [[s[0]] + rest[0]] + rest[1..]
  }

  /** A string without the separator is one piece. */
  lemma {:induction false} SplitOnNoSeparator(s: string, c: char)
    requires c !in s
    ensures SplitOn(s, c) == [s]
    decreases |s|
  {
    if |s| > 0 {
      assert c !in s[1..];
      SplitOnNoSeparator(s[1..], c);
      assert [s[0]] + s[1..] == s;
    }
  }

  /** Splitting `x + [c] + rest` stops at the first separator, right after `x`. */
  lemma {:induction false} SplitOnFirst(x: string, c: char, rest: string)
    requires c !in x
    ensures SplitOn(x + [c] + rest, c) == [x] + SplitOn(rest, c)
    decreases |x|
  {
    var s := x + [c] + rest;
    if |x| == 0 {
      assert s == [c] + rest;
      assert s[1..] == rest;
    } else {
      assert s[1..] == x[1..] + [c] + rest;
      assert c !in x[1..];
      SplitOnFirst(x[1..], c, rest);
      assert [x[0]] + x[1..] == x;
    }
  }

  /** `split` undoes `join` when no part holds the separator. */
  lemma {:induction false} SplitJoin(parts: seq<string>, c: char)
    requires |parts| > 0
    requires forall k :: 0 <= k < |parts| ==> c !in parts[k]
    ensures SplitOn(Join([c], parts), c) == parts
    decreases |parts|
  {
    if |parts| == 1 {
      SplitOnNoSeparator(parts[0], c);
    } else {
      SplitJoin(parts[1..], c);
      SplitOnFirst(parts[0], c, Join([c], parts[1..]));
      assert [parts[0]] + parts[1..] == parts;
    }
  }
}

=== FILE: mentions.dfy ===
/**
 The caption of an image sent with mentions (`sendImageWithMention`, and
 the same construction in the hourly reminder): the caption, a blank line,
 then one `@name` per mentioned player separated by spaces; alongside it,
 the list of mentioned WhatsApp ids, one `name@s.whatsapp.net` per player.
 */
module Mentions {
  import opened Wrappers
  import opened JsText

  /** The domain a WhatsApp user id ends with. */
  const JidSuffix: string := "@s.whatsapp.net"

  /** `mentions.map(player => "@" + player)` */
  function Tags(mentions: seq<string>): (tags: seq<string>)
    ensures |tags| == |mentions|
  {
    seq(|mentions|, k requires 0 <= k < |mentions| => "@" + mentions[k])
  }

  /** `mentionText`: empty unless there are mentions, then the tags joined
      by one space. */
  function MentionText(mentions: seq<string>): string {
    if |mentions| > 0 then Join(" ", Tags(mentions)) else ""
  }

  /** `fullCaption` */
  function FullCaption(caption: string, mentions: seq<string>): string {
    caption + "\n\n" + MentionText(mentions)
  }

  /** `mentionedJid` */
  function MentionedJids(mentions: seq<string>): (jids: seq<string>)
    ensures |jids| == |mentions|
  {
    seq(|mentions|, k requires 0 <= k < |mentions| => mentions[k] + JidSuffix)
  }

  /** The player an id names: the id without the domain, or nothing when it
      does not end with it. */
  function JidUser(jid: string): (user: Option<string>)
    ensures user.Some? ==> user.value + JidSuffix == jid
    ensures user.None? ==> forall u :: u + JidSuffix != jid
  {
    if |jid| >= |JidSuffix| && jid[|jid| - |JidSuffix|..] == JidSuffix then
      assert jid[..|jid| - |JidSuffix|] + JidSuffix == jid;
      Some(jid[..|jid| - |JidSuffix|])
    else
      assert forall u :: (u + JidSuffix)[|u|..] == JidSuffix;
      None
  }

  /** Every mentioned id names its player, in the order of the mentions. */
  lemma JidsNameMentions(mentions: seq<string>)
    ensures forall k :: 0 <= k < |mentions| ==> JidUser(MentionedJids(mentions)[k]) == Some(mentions[k])
  {
    forall k | 0 <= k < |mentions|
      ensures JidUser(MentionedJids(mentions)[k]) == Some(mentions[k])
    {
      var jid := mentions[k] + JidSuffix;
      assert jid[|jid| - |JidSuffix|..] == JidSuffix;
      assert jid[..|jid| - |JidSuffix|] == mentions[k];
    }
  }

  /** The guard on an empty mention list changes nothing: joining no tags
      is already the empty string, so the reminder task, which joins without
      the guard, writes the same text. */
  lemma MentionTextIsJoin(mentions: seq<string>)
    ensures MentionText(mentions) == Join(" ", Tags(mentions))
  {
  }

  /** The caption comes first, then a blank line, then the mention text;
      with no mentions the caption just ends with the blank line. */
  lemma CaptionLayout(caption: string, mentions: seq<string>)
    ensures FullCaption(caption, mentions)[..|caption| + 2] == caption + "\n\n"
    ensures FullCaption(caption, mentions)[|caption| + 2..] == MentionText(mentions)
    ensures |mentions| == 0 ==> FullCaption(caption, mentions) == caption + "\n\n"
  {
    var full := FullCaption(caption, mentions);
    assert full == (caption + "\n\n") + MentionText(mentions);
  }

  /** Splitting the mention text on spaces gives back one tag per player, in
      order, as long as no name holds a space; dropping each tag's `@` gives
      back the name. */
  lemma MentionTextSplits(mentions: seq<string>)
    requires |mentions| > 0
    requires forall k :: 0 <= k < |mentions| ==> ' ' !in mentions[k]
    ensures SplitOn(MentionText(mentions), ' ') == Tags(mentions)
    ensures forall k :: 0 <= k < |mentions| ==> Tags(mentions)[k][1..] == mentions[k]
  {
    var tags := Tags(mentions);
    forall k | 0 <= k < |tags|
      ensures ' ' !in tags[k]
    {
      assert tags[k] == "@" + mentions[k];
    }
    assert " " == [' '];
    SplitJoin(tags, ' ');
    forall k | 0 <= k < |mentions|
      ensures tags[k][1..] == mentions[k]
    {
      assert tags[k] == "@" + mentions[k];
    }
  }

  /** What the message shows and whom it notifies agree: the text after the
      blank line splits at spaces into one `@` tag per mentioned id, in the
      same order, and each tag without its `@` is the player that id names. */
  lemma CaptionTagsMatchJids(caption: string, mentions: seq<string>)
    requires |mentions| > 0
    requires forall k :: 0 <= k < |mentions| ==> ' ' !in mentions[k]
    ensures var tags := SplitOn(FullCaption(caption, mentions)[|caption| + 2..], ' ');
      && |tags| == |MentionedJids(mentions)|
      && forall k :: 0 <= k < |tags| ==>
           |tags[k]| > 0 && tags[k][0] == '@' && JidUser(MentionedJids(mentions)[k]) == Some(tags[k][1..])
  {
    CaptionLayout(caption, mentions);
    MentionTextSplits(mentions);
    JidsNameMentions(mentions);
    var tags := Tags(mentions);
    forall k | 0 <= k < |tags|
      ensures |tags[k]| > 0 && tags[k][0] == '@'
    {
      assert tags[k] == "@" + mentions[k];
    }
  }
}

=== FILE: ocr_score.dfy ===
/**
 The score-line reader of the OCR library module: the pattern
 `(\w+)\s*(\d+)[-\s](\d+)\s*(\w+)` (case-sensitive, though it holds no
 letters) is searched in the recognised text, and its first match becomes
 the two names and the score written `d1-d2` from the raw digit runs, or
 nothing when the pattern does not match.
 */
module OcrScore {
  import opened Wrappers
  import opened JsText
  import opened Backtrack

  /** `[-\s]` */
  const ScoreSeparator: CharClass := Bracket(['-'], true)

  const LibPattern: Pattern := [
    Repeat(Word, Plus),              // (\w+)   player 1
    Repeat(Space, Star),             // \s*
    Repeat(Digit, Plus),             // (\d+)   first score
    Repeat(ScoreSeparator, Once),    // [-\s]
    Repeat(Digit, Plus),             // (\d+)   second score
    Repeat(Space, Star),             // \s*
    Repeat(Word, Plus)               // (\w+)   player 2
  ]

  datatype OcrResult = OcrResult(player1: string, player2: string, score: string)

  /** `r` is what the groups of the match `t` say: the names are groups 1 and
      4, the score is groups 2 and 3 joined by `-`. */
  predicate Reports(t: Trace, r: OcrResult) {
    && |t| == |LibPattern|
    && r.player1 == t[0].s
    && r.player2 == t[6].s
    && r.score == t[2].s + "-" + t[4].s
  }

  /** The groups of any match of the pattern are runs of the right kind, and
      one separator character sits between the digit runs. */
  lemma LibGroups(s: string, t: Trace)
    requires MatchesFrom(LibPattern, s, t)
    ensures IsWordRun(t[0].s) && IsWordRun(t[6].s)
    ensures IsDigitRun(t[2].s) && IsDigitRun(t[4].s)
    ensures AllIn(t[1].s, Space) && AllIn(t[5].s, Space)
    ensures |t[3].s| == 1 && (t[3].s[0] == '-' || IsJsSpace(t[3].s[0]))
  {
    PieceFits(LibPattern, s, t, 0);
    PieceFits(LibPattern, s, t, 1);
    PieceFits(LibPattern, s, t, 2);
    PieceFits(LibPattern, s, t, 3);
    PieceFits(LibPattern, s, t, 4);
    PieceFits(LibPattern, s, t, 5);
    PieceFits(LibPattern, s, t, 6);
  }

  /** The exported reader, given the recognised text: nothing exactly when
      the pattern matches nowhere; otherwise the groups of the first match. */
  function ExtractScore(text: string): (r: Option<OcrResult>)
    ensures r.None? <==> forall i: nat, t: Trace :: !MatchesAt(LibPattern, text, i, t)
    ensures r.Some? ==> exists m: Found :: IsFirstMatch(LibPattern, text, m) && Reports(m.trace, r.value)
    ensures r.Some? ==> IsWordRun(r.value.player1) && IsWordRun(r.value.player2)
  {
    match Search(LibPattern, text)
    case None => None
    case Some(m) =>
      LibGroups(text[m.start..], m.trace);
      Some(OcrResult(m.trace[0].s, m.trace[6].s, m.trace[2].s + "-" + m.trace[4].s))
  }

  /** No digit is `-`, so the score splits at its one `-` into the two digit
      runs it was built from, leading zeros and all. */
  lemma ScoreParts(text: string, m: Found)
    requires IsFirstMatch(LibPattern, text, m)
    ensures ExtractScore(text) == Some(OcrResult(m.trace[0].s, m.trace[6].s, m.trace[2].s + "-" + m.trace[4].s))
    ensures SplitOn(ExtractScore(text).value.score, '-') == [m.trace[2].s, m.trace[4].s]
    ensures IsDigitRun(m.trace[2].s) && IsDigitRun(m.trace[4].s)
  {
    SearchReports(LibPattern, text, m);
    LibGroups(text[m.start..], m.trace);
    var d1, d2 := m.trace[2].s, m.trace[4].s;
    assert Join("-", [d1, d2]) == d1 + "-" + d2;
    SplitJoin([d1, d2], '-');
  }

  /** The digit runs of a match are separated by exactly one character, a
      `-` or a `\s`. */
  lemma SeparatorIsOneChar(text: string, m: Found)
    requires IsFirstMatch(LibPattern, text, m)
    ensures |m.trace[3].s| == 1
    ensures m.trace[3].s[0] == '-' || IsJsSpace(m.trace[3].s[0])
  {
    LibGroups(text[m.start..], m.trace);
  }

  /** What the first match covers: player 1, spaces, the first digit run,
      the separator, the second digit run, spaces and player 2 stand in the
      text, one after the other, where the match starts. */
  lemma MatchInText(text: string, m: Found)
    requires IsFirstMatch(LibPattern, text, m)
    ensures OccursAt(text, ExtractScore(text).value.player1 + (m.trace[1].s + (m.trace[2].s + (m.trace[3].s
                           + (m.trace[4].s + (m.trace[5].s + ExtractScore(text).value.player2))))), m.start)
    ensures AllIn(m.trace[1].s, Space) && AllIn(m.trace[5].s, Space)
  {
    ScoreParts(text, m);
    LibGroups(text[m.start..], m.trace);
    var t := m.trace;
    MatchSpelled(LibPattern, text[m.start..], t);
    assert Spelled(t[6..]) == t[6].s;
    assert Spelled(t[5..]) == t[5].s + Spelled(t[6..]);
    assert Spelled(t[4..]) == t[4].s + Spelled(t[5..]);
    assert Spelled(t[3..]) == t[3].s + Spelled(t[4..]);
    assert Spelled(t[2..]) == t[2].s + Spelled(t[3..]);
    assert Spelled(t[1..]) == t[1].s + Spelled(t[2..]);
    assert Spelled(t) == t[0].s + Spelled(t[1..]);
    assert text[m.start..][..|Spelled(t)|] == text[m.start..m.start + |Spelled(t)|];
  }

  /** The pattern as its pairs of items and the second name alone at the end. */
  lemma LibPatternPairs()
    ensures LibPattern
         == [Repeat(Word, Plus), Repeat(Space, Star)]
          + ([Repeat(Digit, Plus), Repeat(ScoreSeparator, Once)]
          + ([Repeat(Digit, Plus), Repeat(Space, Star)]
          + [Repeat(Word, Plus)]))
  {
  }

  /** Items 4 to 6 read `d2 n2` to the end of the text. */
  lemma SecondHalf(d2: string, n2: string)
    requires IsDigitRun(d2) && IsWordRun(n2)
    ensures MatchFrom([Repeat(Digit, Plus), Repeat(Space, Star)] + [Repeat(Word, Plus)], d2 + (" " + n2))
         == Some([Piece(0, d2), Piece(0, " ")] + [Piece(0, n2)])
  {
    assert !IsJsSpace(n2[0]) by { VisibleNotSpace(n2[0]); }
    assert (" " + n2)[0] == ' ';
    PeelLast(Word, Plus, n2);
    PeelTwo(Digit, Plus, Space, Star, [Repeat(Word, Plus)], d2, " ", n2, [Piece(0, n2)]);
  }

  /** Items 0 to 3 read `n1 d1<sep>` ahead of a digit. */
  lemma FirstHalf(p4: Pattern, n1: string, d1: string, sep: char, rest: string, t: Trace)
    requires IsWordRun(n1) && IsDigitRun(d1)
    requires InClass(sep, ScoreSeparator) && !IsDigitChar(sep)
    requires |rest| > 0 && IsDigitChar(rest[0])
    requires MatchFrom(p4, rest) == Some(t)
    ensures MatchFrom([Repeat(Word, Plus), Repeat(Space, Star)] + ([Repeat(Digit, Plus), Repeat(ScoreSeparator, Once)] + p4),
                      n1 + (" " + (d1 + ([sep] + rest))))
         == Some([Piece(0, n1), Piece(0, " ")] + ([Piece(0, d1), Piece(0, [sep])] + t))
  {
    var s2 := d1 + ([sep] + rest);
    assert ([sep] + rest)[0] == sep;
    assert s2[0] == d1[0];
    assert (" " + s2)[0] == ' ';
    assert !IsJsSpace(d1[0]) by { VisibleNotSpace(d1[0]); }
    assert !InClass(rest[0], ScoreSeparator) by { VisibleNotSpace(rest[0]); }
    PeelTwo(Digit, Plus, ScoreSeparator, Once, p4, d1, [sep], rest, t);
    PeelTwo(Word, Plus, Space, Star, [Repeat(Digit, Plus), Repeat(ScoreSeparator, Once)] + p4,
            n1, " ", s2, [Piece(0, d1), Piece(0, [sep])] + t);
  }

  /** The match of the pattern on `n1 d1<sep>d2 n2`, pair by pair. */
  function LineTrace(n1: string, d1: string, sep: char, d2: string, n2: string): (t: Trace)
    ensures |t| == |LibPattern|
    ensures t[0].s == n1 && t[2].s == d1 && t[4].s == d2 && t[6].s == n2
  {
    [Piece(0, n1), Piece(0, " ")]
      + ([Piece(0, d1), Piece(0, [sep])]
      + ([Piece(0, d2), Piece(0, " ")]
      + [Piece(0, n2)]))
  }

  /** The whole pattern reads `n1 d1<sep>d2 n2` from its first character. */
  lemma LineMatch(n1: string, d1: string, sep: char, d2: string, n2: string)
    requires IsWordRun(n1) && IsWordRun(n2) && IsDigitRun(d1) && IsDigitRun(d2)
    requires sep == '-' || IsJsSpace(sep)
    ensures MatchFrom(LibPattern, n1 + (" " + (d1 + ([sep] + (d2 + (" " + n2))))))
         == Some(LineTrace(n1, d1, sep, d2, n2))
  {
    assert !IsDigitChar(sep) by {
      if sep != '-' {
        SpaceNotWord(sep);
      }
    }
    LibPatternPairs();
    SecondHalf(d2, n2);
    FirstHalf([Repeat(Digit, Plus), Repeat(Space, Star)] + [Repeat(Word, Plus)], n1, d1, sep, d2 + (" " + n2),
              [Piece(0, d2), Piece(0, " ")] + [Piece(0, n2)]);
  }

  lemma LineAssociates(n1: string, d1: string, sep: char, d2: string, n2: string)
    ensures n1 + " " + d1 + [sep] + d2 + " " + n2 == n1 + (" " + (d1 + ([sep] + (d2 + (" " + n2)))))
  {
  }

  /** Writing a result line as `n1 d1-d2 n2` (or with a `\s` between the
      scores) and reading it gives back the names and the score with `-`,
      digits exactly as written: leading zeros stay, and a name may end in
      digits. */
  lemma LineRoundTrip(n1: string, d1: string, sep: char, d2: string, n2: string)
    requires IsWordRun(n1) && IsWordRun(n2) && IsDigitRun(d1) && IsDigitRun(d2)
    requires sep == '-' || IsJsSpace(sep)
    ensures ExtractScore(n1 + " " + d1 + [sep] + d2 + " " + n2) == Some(OcrResult(n1, n2, d1 + "-" + d2))
  {
    LineMatch(n1, d1, sep, d2, n2);
    LineAssociates(n1, d1, sep, d2, n2);
    SearchAtStart(LibPattern, n1 + " " + d1 + [sep] + d2 + " " + n2, LineTrace(n1, d1, sep, d2, n2));
  }
}

=== FILE: pending_players.dfy ===
/**
 The player list of `extractPlayersFromPendingMatches`: for every pending
 match row, in page order, the text of its first-player cell and then of its
 second-player cell is trimmed and kept when it is not empty; the list is
 then passed through a `Set` and spread back, which keeps the first
 appearance of every name in order.
 */
module PendingPlayers {
  import opened Wrappers
  import opened JsText
  import opened Seqs

  /** A pending match row: the text of each player cell, or nothing when the
      row has no such cell. */
  datatype PendingRow = PendingRow(player1: Option<string>, player2: Option<string>)

  /** `cell?.textContent?.trim()` when it is truthy (a non-empty string). */
  function CellName(cell: Option<string>): (name: Option<string>)
    ensures name.Some? ==> name.value != ""
    ensures name.Some? ==> cell.Some? && name.value == Trim(cell.value)
    ensures name.Some? <==> cell.Some? && exists k :: 0 <= k < |cell.value| && !IsJsSpace(cell.value[k])
  {
    match cell
    case None => None
    case Some(text) =>
      TrimBlank(text);
      if Trim(text) != "" then Some(Trim(text)) else None
  }

  /** What the row's cell pushes onto the list: its name, if any. */
  function Pushed(cell: Option<string>): seq<string> {
    match CellName(cell)
    case None => []
    case Some(x) => [x]
  }

  /** `x` is what one of the row's cells contributes. */
  predicate NameOf(row: PendingRow, x: string) {
    CellName(row.player1) == Some(x) || CellName(row.player2) == Some(x)
  }

  /** What one row pushes: its first player, then its second. */
  function RowNames(row: PendingRow): seq<string> {
    Pushed(row.player1) + Pushed(row.player2)
  }

  /** `playerList` after the `forEach`: the pushed names, row after row. */
  function PlayerList(rows: seq<PendingRow>): seq<string>
    decreases |rows|
  {
    if |rows| == 0 then [] else RowNames(rows[0]) + PlayerList(rows[1..])
  }

  /** A row pushes exactly the names of its cells. */
  lemma RowNamesAre(row: PendingRow, x: string)
    ensures x in RowNames(row) <==> NameOf(row, x)
  {
  }

  /** The list holds exactly the names the rows contribute, and no empty one. */
  lemma {:induction false} PlayerListNames(rows: seq<PendingRow>)
    ensures forall x :: x in PlayerList(rows) ==> x != ""
    ensures forall x :: x in PlayerList(rows) ==> exists i :: 0 <= i < |rows| && NameOf(rows[i], x)
    ensures forall i, x :: 0 <= i < |rows| && NameOf(rows[i], x) ==> x in PlayerList(rows)
    decreases |rows|
  {
    if |rows| > 0 {
      var rest := rows[1..];
      PlayerListNames(rest);
      var list := PlayerList(rows);
      assert list == RowNames(rows[0]) + PlayerList(rest);
      forall x
        ensures x in list <==> NameOf(rows[0], x) || x in PlayerList(rest)
      {
        RowNamesAre(rows[0], x);
      }
      forall x | x in list
        ensures exists i :: 0 <= i < |rows| && NameOf(rows[i], x)
      {
        if x in PlayerList(rest) {
          var i :| 0 <= i < |rest| && NameOf(rest[i], x);
          assert rows[i + 1] == rest[i];
        } else {
          assert NameOf(rows[0], x);
        }
      }
      forall i, x | 0 <= i < |rows| && NameOf(rows[i], x)
        ensures x in list
      {
        if i > 0 {
          assert rest[i - 1] == rows[i];
        }
      }
    }
  }

  predicate NoDuplicates(xs: seq<string>) {
    forall i, j :: 0 <= i < j < |xs| ==> xs[i] != xs[j]
  }

  /** The index of the first `x` in `xs`. */
  function FirstIndex(xs: seq<string>, x: string): (k: nat)
    requires x in xs
    ensures k < |xs| && xs[k] == x
    ensures forall j :: 0 <= j < k ==> xs[j] != x
    decreases |xs|
  {
    if xs[0] == x then 0 else 1 + FirstIndex(xs[1..], x)
  }

  /** `[...new Set(xs)]`: a `Set` keeps insertion order and ignores a value
      it already holds. */
  function Dedup(xs: seq<string>): (ys: seq<string>)
    ensures NoDuplicates(ys)
    ensures forall x :: x in ys <==> x in xs
    ensures forall i, j :: 0 <= i < j < |ys| ==> FirstIndex(xs, ys[i]) < FirstIndex(xs, ys[j])
    decreases |xs|
  {
    if |xs| == 0 then []
    else
      var front := xs[..|xs| - 1];
      var d := Dedup(front);
      var y := xs[|xs| - 1];
      assert xs == front + [y];
      FirstIndexExtend(front, y);
      if y in d then d else d + [y]
  }

  /** Appending `y` keeps the first index of everything already there, and
      puts a new `y` after all of them. */
  lemma FirstIndexExtend(xs: seq<string>, y: string)
    ensures forall x :: x in xs ==> FirstIndex(xs + [y], x) == FirstIndex(xs, x)
    ensures y !in xs ==> FirstIndex(xs + [y], y) == |xs|
  {
    forall x | x in xs
      ensures FirstIndex(xs + [y], x) == FirstIndex(xs, x)
    {
      var k := FirstIndex(xs, x);
      assert (xs + [y])[k] == x;
    }
  }

  /** The spread of the `Set` as a loop over the list, with the `Set` held
      alongside the output. */
  method UniqueInOrder(xs: seq<string>) returns (ys: seq<string>)
    ensures ys == Dedup(xs)
  {
    var seen: set<string> := {};
    ys := [];
    for i := 0 to |xs|
      invariant ys == Dedup(xs[..i])
      invariant forall x :: x in seen <==> x in ys
    {
      assert xs[..i + 1][..i] == xs[..i];
      if xs[i] !in seen {
        ys := ys + [xs[i]];
        seen := seen + {xs[i]};
      }
    }
    assert xs[..|xs|] == xs;
  }

  /** The list the extraction returns. */
  function ExtractPlayers(rows: seq<PendingRow>): (players: seq<string>)
    ensures NoDuplicates(players)
    ensures forall x :: x in players ==> x != ""
    ensures forall x :: x in players ==> exists i :: 0 <= i < |rows| && NameOf(rows[i], x)
    ensures forall i, x :: 0 <= i < |rows| && NameOf(rows[i], x) ==> x in players
  {
    PlayerListNames(rows);
    Dedup(PlayerList(rows))
  }

  /** A name is never listed twice, and the names of an earlier row come
      first: `Dedup(xs)` is the start of `Dedup(xs + more)`. */
  lemma {:induction false} DedupPrefix(xs: seq<string>, more: seq<string>)
    ensures |Dedup(xs)| <= |Dedup(xs + more)|
    ensures Dedup(xs + more)[..|Dedup(xs)|] == Dedup(xs)
    decreases |more|
  {
    if |more| == 0 {
      assert xs + more == xs;
    } else {
      var front := more[..|more| - 1];
      DedupPrefix(xs, front);
      assert xs + more == (xs + front) + [more[|more| - 1]];
      assert (xs + more)[..|xs + more| - 1] == xs + front;
    }
  }

  /** The rows come in page order: the names of the first rows open the
      list, in the order they were pushed. */
  lemma RowsInOrder(rows: seq<PendingRow>, more: seq<PendingRow>)
    ensures |ExtractPlayers(rows)| <= |ExtractPlayers(rows + more)|
    ensures ExtractPlayers(rows + more)[..|ExtractPlayers(rows)|] == ExtractPlayers(rows)
  {
    PlayerListAppend(rows, more);
    DedupPrefix(PlayerList(rows), PlayerList(more));
  }

  /** Reading more rows extends the list read so far. */
  lemma {:induction false} PlayerListAppend(rows: seq<PendingRow>, more: seq<PendingRow>)
    ensures PlayerList(rows + more) == PlayerList(rows) + PlayerList(more)
    decreases |rows|
  {
    if |rows| == 0 {
      assert rows + more == more;
    } else {
      PlayerListAppend(rows[1..], more);
      FrontOfAppend(rows, more);
      AppendAssoc(RowNames(rows[0]), PlayerList(rows[1..]), PlayerList(more));
    }
  }

  /** A name not yet in the list goes to the end of the de-duplicated list. */
  lemma DedupAppendNew(xs: seq<string>, y: string)
    requires y !in xs
    ensures Dedup(xs + [y]) == Dedup(xs) + [y]
  {
    var ys := xs + [y];
    assert ys[..|ys| - 1] == xs && ys[|ys| - 1] == y;
  }

  /** The list reads the rows before row `i`, then row `i`, then the rest. */
  lemma PlayerListAt(rows: seq<PendingRow>, i: nat)
    requires i < |rows|
    ensures PlayerList(rows) == PlayerList(rows[..i]) + (RowNames(rows[i]) + PlayerList(rows[i + 1..]))
  {
    var more := rows[i + 1..];
    SplitAt(rows, i);
    FrontOfAppend([rows[i]], more);
    PlayerListAppend(rows[..i], [rows[i]] + more);
  }

  /** A name no row holds is not in the list. */
  lemma NotListed(rows: seq<PendingRow>, x: string)
    requires forall j :: 0 <= j < |rows| ==> !NameOf(rows[j], x)
    ensures x !in PlayerList(rows)
  {
    PlayerListNames(rows);
  }

  /** Two new, different names go to the end of the de-duplicated list, in
      order. */
  lemma DedupPairNew(xs: seq<string>, x: string, y: string)
    requires x !in xs && y !in xs && x != y
    ensures Dedup(xs + [x, y]) == Dedup(xs) + [x, y]
  {
    DedupAppendNew(xs, x);
    DedupAppendNew(xs + [x], y);
    AppendPair(xs, x, y);
    AppendPair(Dedup(xs), x, y);
  }

  /** Two new, different names stay at the end of the de-duplicated list,
      in order, whatever is read after them. */
  lemma DedupTwoNew(xs: seq<string>, x: string, y: string, ys: seq<string>)
    requires x !in xs && y !in xs && x != y
    ensures |Dedup(xs)| + 2 <= |Dedup(xs + ([x, y] + ys))|
    ensures Dedup(xs + ([x, y] + ys))[..|Dedup(xs)| + 2] == Dedup(xs) + [x, y]
  {
    var d := Dedup(xs);
    DedupPairNew(xs, x, y);
    assert |Dedup(xs + [x, y])| == |d| + 2;
    AppendAssoc(xs, [x, y], ys);
    DedupPrefix(xs + [x, y], ys);
  }

  /** Within a row the first player is listed before the second: when the
      two cells of row `i` hold different names that no earlier row holds,
      the list read from the rows before it goes on with the first player
      and then the second, whatever rows follow. */
  lemma FirstPlayerFirst(rows: seq<PendingRow>, i: nat, a: string, b: string)
    requires i < |rows| && rows[i] == PendingRow(Some(a), Some(b))
    requires Trim(a) != "" && Trim(b) != "" && Trim(a) != Trim(b)
    requires forall j :: 0 <= j < i ==> !NameOf(rows[j], Trim(a)) && !NameOf(rows[j], Trim(b))
    ensures |ExtractPlayers(rows[..i])| + 2 <= |ExtractPlayers(rows)|
    ensures ExtractPlayers(rows)[..|ExtractPlayers(rows[..i])| + 2]
         == ExtractPlayers(rows[..i]) + [Trim(a), Trim(b)]
  {
    var pre := rows[..i];
    assert forall j :: 0 <= j < |pre| ==> pre[j] == rows[j];
    NotListed(pre, Trim(a));
    NotListed(pre, Trim(b));
    assert RowNames(rows[i]) == [Trim(a), Trim(b)];
    PlayerListAt(rows, i);
    DedupTwoNew(PlayerList(pre), Trim(a), Trim(b), PlayerList(rows[i + 1..]));
  }
}

=== FILE: score_capture.dfy ===
/**
 The score-line parser the bot plugin runs on the text recognised in a score
 capture (`analyzeScoreCapture`): the case-insensitive pattern
 `(\w+)\s*(?:vs?|contre)\s*(\w+)\s*[:\-]?\s*(\d+)\s*[:\-]\s*(\d+)` is searched
 in the text, and its first match becomes a record of two trimmed names and
 two numbers read with `parseInt`, or nothing when the pattern does not match.
 */
module ScoreCapture {
  import opened Wrappers
  import opened JsText
  import opened Decimal
  import opened Backtrack
  import opened Seqs

  /** `(?:vs?|contre)`: `v` followed by an optional `s` is tried with the `s`
      first, so the group is the alternatives `vs`, `v`, `contre` in that order. */
  const Versus: seq<string> := ["vs", "v", "contre"]

  /** `[:\-]` */
  const ScoreMarks: CharClass := Bracket([':', '-'], false)

  const ScorePattern: Pattern := [
    Repeat(Word, Plus),        // (\w+)        first player
    Repeat(Space, Star),       // \s*
    Literals(Versus),          // (?:vs?|contre)
    Repeat(Space, Star),       // \s*
    Repeat(Word, Plus),        // (\w+)        second player
    Repeat(Space, Star),       // \s*
    Repeat(ScoreMarks, Opt),   // [:\-]?
    Repeat(Space, Star),       // \s*
    Repeat(Digit, Plus),       // (\d+)        first score
    Repeat(Space, Star),       // \s*
    Repeat(ScoreMarks, Once),  // [:\-]
    Repeat(Space, Star),       // \s*
    Repeat(Digit, Plus)        // (\d+)        second score
  ]

  datatype ScoreData = ScoreData(player1: string, player2: string, score1: nat, score2: nat)

  /** `d` is what the four groups of the match `t` say: the names are the
      captured word runs, the scores the values of the captured digit runs. */
  predicate Captures(t: Trace, d: ScoreData) {
    && |t| == |ScorePattern|
    && d.player1 == t[0].s
    && d.player2 == t[4].s
    && IsDigitRun(t[8].s) && d.score1 == DigitsValue(t[8].s)
    && IsDigitRun(t[12].s) && d.score2 == DigitsValue(t[12].s)
  }

  /** The four groups of any match of the pattern are runs of the right kind. */
  lemma GroupsAreRuns(s: string, t: Trace)
    requires MatchesFrom(ScorePattern, s, t)
    ensures IsWordRun(t[0].s) && IsWordRun(t[4].s)
    ensures IsDigitRun(t[8].s) && IsDigitRun(t[12].s)
  {
    PieceFits(ScorePattern, s, t, 0);
    PieceFits(ScorePattern, s, t, 4);
    PieceFits(ScorePattern, s, t, 8);
    PieceFits(ScorePattern, s, t, 12);
  }

  /** The parse of the recognised text: nothing exactly when the pattern
      matches nowhere; otherwise the groups of the match `text.match` reports. */
  function AnalyzeScoreText(text: string): (r: Option<ScoreData>)
    ensures r.None? <==> forall i: nat, t: Trace :: !MatchesAt(ScorePattern, text, i, t)
    ensures r.Some? ==> exists m: Found :: IsFirstMatch(ScorePattern, text, m) && Captures(m.trace, r.value)
    ensures r.Some? ==> IsWordRun(r.value.player1) && IsWordRun(r.value.player2)
  {
    match Search(ScorePattern, text)
    case None => None
    case Some(m) =>
      GroupsAreRuns(text[m.start..], m.trace);
      TrimWordRun(m.trace[0].s);
      TrimWordRun(m.trace[4].s);
      var d := ScoreData(
        Trim(m.trace[0].s), Trim(m.trace[4].s),
        DigitsValue(m.trace[8].s), DigitsValue(m.trace[12].s));
      assert Captures(m.trace, d);
      Some(d)
  }

  /** The pattern as its pairs of items, each a group or word and the `\s*`
      or mark after it, and the second score alone at the end. */
  lemma ScorePatternPairs()
    ensures ScorePattern
         == [Repeat(Word, Plus), Repeat(Space, Star)]
          + ([Literals(Versus), Repeat(Space, Star)]
          + ([Repeat(Word, Plus), Repeat(Space, Star)]
          + ([Repeat(ScoreMarks, Opt), Repeat(Space, Star)]
          + ([Repeat(Digit, Plus), Repeat(Space, Star)]
          + ([Repeat(ScoreMarks, Once), Repeat(Space, Star)]
          + [Repeat(Digit, Plus)])))))
  {
  }

  /** Items 10 to 12 read the mark alone, then the second score. */
  lemma MarkThenScore(mark: char, B: string)
    requires IsDigitRun(B)
    requires mark == '-' || mark == ':'
    ensures MatchFrom([Repeat(ScoreMarks, Once), Repeat(Space, Star)] + [Repeat(Digit, Plus)], [mark] + B)
         == Some([Piece(0, [mark]), Piece(0, "")] + [Piece(0, B)])
  {
    assert !IsJsSpace(B[0]) by { VisibleNotSpace(B[0]); }
    assert AllIn([mark], ScoreMarks);
    PeelLast(Digit, Plus, B);
    PeelThenNone(ScoreMarks, Once, Space, Star, [Repeat(Digit, Plus)], [mark], B, [Piece(0, B)]);
  }

  /** Items 8 to 12 read `A<mark>B`: both digit runs whole, the mark alone. */
  lemma ScoresTail(A: string, mark: char, B: string)
    requires IsDigitRun(A) && IsDigitRun(B)
    requires mark == '-' || mark == ':'
    ensures MatchFrom([Repeat(Digit, Plus), Repeat(Space, Star)]
                        + ([Repeat(ScoreMarks, Once), Repeat(Space, Star)] + [Repeat(Digit, Plus)]),
                      A + ([mark] + B))
         == Some([Piece(0, A), Piece(0, "")] + ([Piece(0, [mark]), Piece(0, "")] + [Piece(0, B)]))
  {
    var s10 := [mark] + B;
    assert s10[0] == mark;
    assert !IsJsSpace(mark) by { VisibleNotSpace(mark); }
    MarkThenScore(mark, B);
    PeelThenNone(Digit, Plus, Space, Star, [Repeat(ScoreMarks, Once), Repeat(Space, Star)] + [Repeat(Digit, Plus)],
                 A, s10, [Piece(0, [mark]), Piece(0, "")] + [Piece(0, B)]);
  }

  /** Items 4 to 7 read `n2 ` ahead of a score. */
  lemma SecondPlayer(p8: Pattern, n2: string, rest: string, t: Trace)
    requires IsWordRun(n2)
    requires |rest| > 0 && IsDigitChar(rest[0])
    requires MatchFrom(p8, rest) == Some(t)
    ensures MatchFrom([Repeat(Word, Plus), Repeat(Space, Star)] + ([Repeat(ScoreMarks, Opt), Repeat(Space, Star)] + p8),
                      n2 + (" " + rest))
         == Some([Piece(0, n2), Piece(0, " ")] + ([Piece(0, ""), Piece(0, "")] + t))
  {
    assert !IsJsSpace(rest[0]) by { VisibleNotSpace(rest[0]); }
    assert (" " + rest)[0] == ' ';
    assert "" + rest == rest;
    PeelThenNone(ScoreMarks, Opt, Space, Star, p8, "", rest, t);
    PeelTwo(Word, Plus, Space, Star, [Repeat(ScoreMarks, Opt), Repeat(Space, Star)] + p8,
            n2, " ", rest, [Piece(0, ""), Piece(0, "")] + t);
  }

  /** Which alternative of the versus group spells `w`. */
  function VersusIndex(w: string): (j: nat)
    requires w in Versus
    ensures j < |Versus| && Versus[j] == w
  {
    if w == "vs" then 0 else if w == "v" then 1 else 2
  }

  /** The versus word is taken as written: no earlier alternative is ahead of
      it when a space follows it. */
  lemma VersusWordTaken(sep: string, rest: string, tail: Pattern, t: Trace)
    requires Lower(sep) in Versus
    requires MatchFrom(tail, " " + rest) == Some(t)
    ensures MatchFrom([Literals(Versus)] + tail, sep + (" " + rest))
         == Some([Piece(VersusIndex(Lower(sep)), sep)] + t)
  {
    var j := VersusIndex(Lower(sep));
    var s2 := sep + (" " + rest);
    assert Lower(sep)[0] == AsciiLower(sep[0]);
    assert s2[0] == sep[0];
    forall i | 0 <= i < j
      ensures !LiteralAhead(Versus[i], s2)
    {
      if |Versus[i]| <= |s2| {
        assert Lower(s2[..|Versus[i]|])[0] == AsciiLower(sep[0]);
        if i == 0 && j == 1 {
          assert s2[1] == ' ';
          assert Lower(s2[..2])[1] == ' ';
        }
      }
    }
    PeelLiteral(Versus, j, tail, sep, " " + rest, t);
  }

  /** A versus word starts with a letter, which is not `\s`. */
  lemma VersusStartsVisible(sep: string)
    requires Lower(sep) in Versus
    ensures |sep| > 0 && !IsJsSpace(sep[0])
  {
    var w := Lower(sep);
    assert w[0] == 'v' || w[0] == 'c';
    assert w[0] == AsciiLower(sep[0]);
    VisibleNotSpace(sep[0]);
  }

  /** Items 2 and 3 read the versus word and the space after it. */
  lemma VersusThenSpace(p4: Pattern, sep: string, rest: string, t: Trace)
    requires Lower(sep) in Versus
    requires |rest| > 0 && IsWordChar(rest[0])
    requires MatchFrom(p4, rest) == Some(t)
    ensures MatchFrom([Literals(Versus), Repeat(Space, Star)] + p4, sep + (" " + rest))
         == Some([Piece(VersusIndex(Lower(sep)), sep), Piece(0, " ")] + t)
  {
    assert !IsJsSpace(rest[0]) by { VisibleNotSpace(rest[0]); }
    PrependTwo(Literals(Versus), Repeat(Space, Star), p4);
    PrependTwo(Piece(VersusIndex(Lower(sep)), sep), Piece(0, " "), t);
    PeelRepeat(Space, Star, p4, " ", rest, t);
    VersusWordTaken(sep, rest, [Repeat(Space, Star)] + p4, [Piece(0, " ")] + t);
  }

  /** Items 0 to 3 read `n1 <versus> `. */
  lemma FirstPlayer(p4: Pattern, n1: string, sep: string, rest: string, t: Trace)
    requires IsWordRun(n1) && Lower(sep) in Versus
    requires |rest| > 0 && IsWordChar(rest[0])
    requires MatchFrom(p4, rest) == Some(t)
    ensures MatchFrom([Repeat(Word, Plus), Repeat(Space, Star)] + ([Literals(Versus), Repeat(Space, Star)] + p4),
                      n1 + (" " + (sep + (" " + rest))))
         == Some([Piece(0, n1), Piece(0, " ")] + ([Piece(VersusIndex(Lower(sep)), sep), Piece(0, " ")] + t))
  {
    var s2 := sep + (" " + rest);
    VersusStartsVisible(sep);
    assert s2[0] == sep[0];
    assert (" " + s2)[0] == ' ';
    VersusThenSpace(p4, sep, rest, t);
    PeelTwo(Word, Plus, Space, Star, [Literals(Versus), Repeat(Space, Star)] + p4,
            n1, " ", s2, [Piece(VersusIndex(Lower(sep)), sep), Piece(0, " ")] + t);
  }

  /** The match of the pattern on `n1 <versus> n2 A<mark>B`, pair by pair. */
  function LineTrace(n1: string, j: nat, sep: string, n2: string, A: string, mark: char, B: string): (t: Trace)
    ensures |t| == |ScorePattern|
    ensures t[0].s == n1 && t[4].s == n2 && t[8].s == A && t[12].s == B
  {
    [Piece(0, n1), Piece(0, " ")]
      + ([Piece(j, sep), Piece(0, " ")]
      + ([Piece(0, n2), Piece(0, " ")]
      + ([Piece(0, ""), Piece(0, "")]
      + ([Piece(0, A), Piece(0, "")]
      + ([Piece(0, [mark]), Piece(0, "")]
      + [Piece(0, B)])))))
  }

  /** The whole pattern reads `n1 <versus> n2 A<mark>B` from its first character. */
  lemma VersusLineMatch(n1: string, sep: string, n2: string, A: string, mark: char, B: string)
    requires IsWordRun(n1) && IsWordRun(n2) && IsDigitRun(A) && IsDigitRun(B)
    requires Lower(sep) in Versus
    requires mark == '-' || mark == ':'
    ensures MatchFrom(ScorePattern, n1 + (" " + (sep + (" " + (n2 + (" " + (A + ([mark] + B))))))))
         == Some(LineTrace(n1, VersusIndex(Lower(sep)), sep, n2, A, mark, B))
  {
    var p8 := [Repeat(Digit, Plus), Repeat(Space, Star)] + ([Repeat(ScoreMarks, Once), Repeat(Space, Star)] + [Repeat(Digit, Plus)]);
    var t8 := [Piece(0, A), Piece(0, "")] + ([Piece(0, [mark]), Piece(0, "")] + [Piece(0, B)]);
    var p4 := [Repeat(Word, Plus), Repeat(Space, Star)] + ([Repeat(ScoreMarks, Opt), Repeat(Space, Star)] + p8);
    var t4 := [Piece(0, n2), Piece(0, " ")] + ([Piece(0, ""), Piece(0, "")] + t8);
    ScorePatternPairs();
    ScoresTail(A, mark, B);
    SecondPlayer(p8, n2, A + ([mark] + B), t8);
    FirstPlayer(p4, n1, sep, n2 + (" " + (A + ([mark] + B))), t4);
  }

  /** The line written left to right is the text the match reads. */
  lemma LineAssociates(n1: string, sep: string, n2: string, A: string, mark: char, B: string)
    ensures n1 + " " + sep + " " + n2 + " " + A + [mark] + B
         == n1 + (" " + (sep + (" " + (n2 + (" " + (A + ([mark] + B)))))))
  {
  }

  /** Writing a result line as `n1 <versus> n2 a<mark>b`, with any ASCII case of
      `vs`, `v` or `contre` as the versus word and `-` or `:` between the
      scores, and parsing it gives back the names and the scores. */
  lemma VersusLineRoundTrip(n1: string, sep: string, n2: string, a: nat, mark: char, b: nat)
    requires IsWordRun(n1) && IsWordRun(n2)
    requires Lower(sep) in Versus
    requires mark == '-' || mark == ':'
    ensures AnalyzeScoreText(n1 + " " + sep + " " + n2 + " " + ShowNat(a) + [mark] + ShowNat(b))
         == Some(ScoreData(n1, n2, a, b))
  {
    var A, B := ShowNat(a), ShowNat(b);
    ShowNatRoundTrip(a);
    ShowNatRoundTrip(b);
    VersusLineMatch(n1, sep, n2, A, mark, B);
    var t := LineTrace(n1, VersusIndex(Lower(sep)), sep, n2, A, mark, B);
    var text := n1 + " " + sep + " " + n2 + " " + A + [mark] + B;
    LineAssociates(n1, sep, n2, A, mark, B);
    SearchAtStart(ScorePattern, text, t);
    TrimWordRun(n1);
    TrimWordRun(n2);
  }

  /** A text with no digit at all never yields a score. */
  lemma NoDigitNoScore(text: string)
    requires forall k :: 0 <= k < |text| ==> !IsDigitChar(text[k])
    ensures AnalyzeScoreText(text).None?
  {
    forall i: nat, t: Trace
      ensures !MatchesAt(ScorePattern, text, i, t)
    {
      NoDigitNoMatch(text, i, t);
    }
  }

  lemma NoDigitNoMatch(text: string, i: nat, t: Trace)
    requires forall k :: 0 <= k < |text| ==> !IsDigitChar(text[k])
    ensures !MatchesAt(ScorePattern, text, i, t)
  {
    if MatchesAt(ScorePattern, text, i, t) {
      MatchHasDigit(text, i, t);
    }
  }

  /** Every match holds a digit of the text: the first score's. */
  lemma MatchHasDigit(text: string, i: nat, t: Trace)
    requires MatchesAt(ScorePattern, text, i, t)
    ensures exists k :: i <= k < |text| && IsDigitChar(text[k])
  {
    GroupsAreRuns(text[i..], t);
    PieceInside(ScorePattern, text[i..], t, 8);
    var c := t[8].s[0];
    assert c in text[i..];
    var k :| 0 <= k < |text[i..]| && text[i..][k] == c;
    assert text[i + k] == c;
  }
}

=== FILE: score_rows.dfy ===
/**
 The match-row lookup of `submitScore`: the rows of the match table are
 scanned in page order, and the first row whose lower-cased text contains
 both lower-cased player names and that carries a score button has that
 button clicked. The page itself is out of the model: a row is its text and
 whether it has a button, and the lookup reports which row's button it
 clicked, or that it found none (the `false` that `submitScore`'s row
 search returns).
 */
module ScoreRows {
  import opened Wrappers
  import opened JsText
  import opened Seqs

  datatype Row = Row(text: string, hasButton: bool)

  /** The row test, both disjuncts as written: the row text, lower-cased,
      includes each lower-cased name. */
  predicate Qualifies(row: Row, p1: string, p2: string) {
    var text := Lower(row.text);
    (Contains(text, Lower(p1)) && Contains(text, Lower(p2)))
    || (Contains(text, Lower(p2)) && Contains(text, Lower(p1)))
  }

  /** A row whose button the lookup may click. */
  predicate Clickable(row: Row, p1: string, p2: string) {
    Qualifies(row, p1, p2) && row.hasButton
  }

  /** The scan from row `i` on. */
  function FindFrom(rows: seq<Row>, p1: string, p2: string, i: nat): (r: Option<nat>)
    requires i <= |rows|
    ensures r.Some? ==> i <= r.value < |rows| && Clickable(rows[r.value], p1, p2)
    ensures r.Some? ==> forall k :: i <= k < r.value ==> !Clickable(rows[k], p1, p2)
    ensures r.None? ==> forall k :: i <= k < |rows| ==> !Clickable(rows[k], p1, p2)
    decreases |rows| - i
  {
    if i == |rows| then None
    else if Qualifies(rows[i], p1, p2) && rows[i].hasButton then Some(i)
    else FindFrom(rows, p1, p2, i + 1)
  }

  /** The lookup: the index of the first clickable row, or nothing. */
  function FindScoreRow(rows: seq<Row>, p1: string, p2: string): (r: Option<nat>)
    ensures r.Some? ==> r.value < |rows| && Clickable(rows[r.value], p1, p2)
    ensures r.Some? ==> forall k :: 0 <= k < r.value ==> !Clickable(rows[k], p1, p2)
    ensures r.None? <==> forall k :: 0 <= k < |rows| ==> !Clickable(rows[k], p1, p2)
  {
    FindFrom(rows, p1, p2, 0)
  }

  /** What `submitScore` goes on with: whether a button was clicked. */
  function MatchFound(rows: seq<Row>, p1: string, p2: string): (b: bool)
    ensures b <==> exists k :: 0 <= k < |rows| && Clickable(rows[k], p1, p2)
  {
    FindScoreRow(rows, p1, p2).Some?
  }

  /** The row test reads as: each name occurs, case aside, somewhere in the
      row text. */
  lemma QualifiesMeansOccurs(row: Row, p1: string, p2: string)
    ensures Qualifies(row, p1, p2)
        <==> ((exists k: nat :: OccursAt(Lower(row.text), Lower(p1), k))
              && (exists k: nat :: OccursAt(Lower(row.text), Lower(p2), k)))
  {
  }

  /** The scan does not care which name is the first. */
  lemma {:induction false} FindFromSymmetric(rows: seq<Row>, p1: string, p2: string, i: nat)
    requires i <= |rows|
    ensures FindFrom(rows, p1, p2, i) == FindFrom(rows, p2, p1, i)
    decreases |rows| - i
  {
    if i < |rows| {
      FindFromSymmetric(rows, p1, p2, i + 1);
    }
  }

  /** Swapping the two players never changes the row clicked. */
  lemma FindScoreRowSymmetric(rows: seq<Row>, p1: string, p2: string)
    ensures FindScoreRow(rows, p1, p2) == FindScoreRow(rows, p2, p1)
  {
    FindFromSymmetric(rows, p1, p2, 0);
  }

  /** The names are compared lower-cased, so lower-casing them first changes
      nothing. */
  lemma FindScoreRowIgnoresCase(rows: seq<Row>, p1: string, p2: string)
    ensures FindScoreRow(rows, Lower(p1), Lower(p2)) == FindScoreRow(rows, p1, p2)
  {
    LowerTwice(p1);
    LowerTwice(p2);
    FindFromSameTest(rows, Lower(p1), Lower(p2), p1, p2, 0);
  }

  /** Two name pairs that pass the same rows find the same row. */
  lemma {:induction false} FindFromSameTest(rows: seq<Row>, p1: string, p2: string, q1: string, q2: string, i: nat)
    requires i <= |rows|
    requires forall k :: i <= k < |rows| ==> (Qualifies(rows[k], p1, p2) <==> Qualifies(rows[k], q1, q2))
    ensures FindFrom(rows, p1, p2, i) == FindFrom(rows, q1, q2, i)
    decreases |rows| - i
  {
    if i < |rows| {
      var row := rows[i];
      assert Qualifies(row, p1, p2) <==> Qualifies(row, q1, q2);
      FindFromSameTest(rows, p1, p2, q1, q2, i + 1);
      assert FindFrom(rows, p1, p2, i) == if Qualifies(row, p1, p2) && row.hasButton then Some(i) else FindFrom(rows, p1, p2, i + 1);
      assert FindFrom(rows, q1, q2, i) == if Qualifies(row, q1, q2) && row.hasButton then Some(i) else FindFrom(rows, q1, q2, i + 1);
    }
  }

  /** Rows without a button are passed over: taking one out of the table
      does not change whether a button is clicked. */
  lemma ButtonlessRowIgnored(rows: seq<Row>, j: nat, p1: string, p2: string)
    requires j < |rows| && !rows[j].hasButton
    ensures MatchFound(rows[..j] + rows[j + 1..], p1, p2) == MatchFound(rows, p1, p2)
  {
    var rest := rows[..j] + rows[j + 1..];
    RemoveAt(rows, j, rest);
    if MatchFound(rows, p1, p2) {
      var k :| 0 <= k < |rows| && Clickable(rows[k], p1, p2);
      assert k != j;
      var k' := if k < j then k else k - 1;
      assert rest[k'] == rows[k];
    }
    if MatchFound(rest, p1, p2) {
      var k :| 0 <= k < |rest| && Clickable(rest[k], p1, p2);
      var k' := if k < j then k else k + 1;
      assert rest[k] == rows[k'];
    }
  }
}

=== FILE: seqs.dfy ===
/**
 Facts about sequences that the string and table modules share. Each is
 stated once here and proved with nothing else in scope, which keeps the
 larger proofs that call them small.
 */
module Seqs {

  /** The head of a sequence built by putting `x` in front of `t`, and its tail. */
  lemma ConsParts<T>(x: T, t: seq<T>)
    ensures ([x] + t)[0] == x && ([x] + t)[1..] == t
  {
  }

  /** The first element and the rest of a concatenation with a non-empty front. */
  lemma FrontOfAppend<T>(xs: seq<T>, ys: seq<T>)
    requires |xs| > 0
    ensures (xs + ys)[0] == xs[0] && (xs + ys)[1..] == xs[1..] + ys
  {
  }

  /** Two items put in front one at a time are the pair put in front. */
  lemma PrependTwo<T>(a: T, b: T, tail: seq<T>)
    ensures [a] + ([b] + tail) == [a, b] + tail
  {
  }

  /** Two items put at the end one at a time are the pair put at the end. */
  lemma AppendPair<T>(xs: seq<T>, x: T, y: T)
    ensures xs + [x] + [y] == xs + [x, y]
  {
  }

  /** Concatenation is associative. */
  lemma AppendAssoc<T>(xs: seq<T>, ys: seq<T>, zs: seq<T>)
    ensures xs + (ys + zs) == (xs + ys) + zs
  {
  }

  /** A slice of `s` inside its suffix `t` is the matching slice of `t`. */
  lemma SliceOfSuffix<T>(s: seq<T>, t: seq<T>, i: nat, n: nat)
    requires i <= |s| && s[i..] == t && n <= |t|
    ensures s[i..i + n] == t[..n]
  {
  }

  /** A sequence is what comes before index `i`, the element there, and the rest. */
  lemma SplitAt<T>(xs: seq<T>, i: nat)
    requires i < |xs|
    ensures xs == xs[..i] + ([xs[i]] + xs[i + 1..])
  {
  }

  /** Where each element lands when the one at `j` is taken out. */
  lemma RemoveAt<T>(xs: seq<T>, j: nat, rest: seq<T>)
    requires j < |xs| && rest == xs[..j] + xs[j + 1..]
    ensures |rest| == |xs| - 1
    ensures forall k :: 0 <= k < j ==> rest[k] == xs[k]
    ensures forall k :: j <= k < |rest| ==> rest[k] == xs[k + 1]
  {
  }

  /** Taking out the element at `j > 0` keeps the head and takes out the
      element at `j - 1` of the tail. */
  lemma RemoveAtTail<T>(xs: seq<T>, j: nat)
    requires 0 < j < |xs|
    ensures xs[..j] + xs[j + 1..] == [xs[0]] + (xs[1..][..j - 1] + xs[1..][j..])
  {
  }
}

=== FILE: wrappers.dfy ===
/** The absent-or-present result that stands for JavaScript's `null` / `undefined`. */
module Wrappers {

  datatype Option<+T> = None | Some(value: T)

}
